=== FILE: README.md ===
# go-protoc, modelled in Dafny

go-protoc wraps the Protocol Buffers compiler for Go projects. It reads the
command line and adds the default `--go_out`, `--go_opt`, `--go-grpc_out` and
`--go-grpc_opt` flags the user did not set. When the user named no proto files,
it adds every `**/*.proto` match. It then asks a binary cache for the protoc
release named by `PROTOC_RELEASE_TAG` (default `latest`). On a cache miss, the
cache resolves the tag to a version, builds the GitHub release URL for the
platform, downloads the archive and unpacks it below
`<cacheDir>/go-protoc/<version>`. Every zip entry passes through a zip-slip
guard on the way.

The model is a set of pure functions over immutable data, one module per
source component:

- `Wrappers`: `Option`/`Result` and the `"context: cause"` error wrapping.
- `Decimal`: `strconv.ParseInt` and `FormatInt` for the Content-Length header,
  and the `strconv.Quote` escaping in the parse error's text.
- `Paths`: Go's lexical path handling: `strings.Split`/`Join` on "/",
  `filepath.Clean`, `filepath.Join`, `filepath.Dir`. A cleaned path has a
  segment view `Path(rooted, segs)`. The zip-slip guard is stated on strings,
  as the code writes it. It is shown to mean "the joined path's segments
  continue the cleaned destination's". That lets an entry climb out of a
  destination made only of ".." segments (see Findings). Extraction uses
  this guard as written. A corrected guard, shown to mean "strictly below
  the cleaned destination", agrees with it for every other destination.
- `FileSystem`: the local filesystem as a map from cleaned paths to
  directories and files. `MkdirAll`, `OpenFile` (truncating and exclusive),
  `Chmod`, `Remove` and `Stat` follow Go's `os` package.
- `FileDownloader`: `DownloadFile`: status check, Content-Length parsing, a
  bounded copy into a sink that may fail, and the length check.
- `ZipDownloader`: `DownloadAndExtract` and `extractAll`, entry by entry, with
  no rollback.
- `VersionResolver`: `ResolveVersion` and `getLatestReleaseTag`.
- `UrlResolver`: `ResolveURL` and `getPlatformFilename`.
- `ProtocDownloader`: the older downloader's URL rules and its binary
  extraction.
- `BinCache`: `NewProtocBinCache` and `BinPath`.
- `ParseArgs`: the command-line scanner. The `ParseArgs` method is the loop;
  `Scan` over tokens is its reference definition.
- `GoProtoc`: `runProtoc` up to the point where protoc would be started.

The network, the zip decoder, the environment lookup, the glob and the
temporary file name become parameters of the functions that use them.

## Model

| member | source | states |
|---|---|---|
| `Wrappers.Wrap` | cmd/go-protoc/go-protoc.go:58 | a wrapped error is the context, ": ", then the cause, each recoverable by position |
| `Wrappers.TrimV` | pkg/releases/protoc_url_resolver.go:16 | exactly one leading "v" is removed when present; otherwise the text is unchanged |
| `Decimal.FormatNat` | pkg/downloader/file_downloader.go:47-49 | the printed count is a non-empty digit string with no leading zero |
| `Decimal.ParseInt` | pkg/downloader/file_downloader.go:37-40 | a parsed Content-Length always lies in the signed 64-bit range |
| `Decimal.ScanDigitsValue` | pkg/downloader/file_downloader.go:37-40 | the digit scanner reads the decimal value of an all-digit string that fits in 64 bits |
| `Decimal.ScanDigitsSound` | pkg/downloader/file_downloader.go:37-40 | a value the digit scanner returns comes from a string of digits, and it is that string's value |
| `Decimal.ParseIntCharacterisation` | pkg/downloader/file_downloader.go:37-40 | parsing succeeds exactly on an optionally signed decimal literal in the int64 range, and returns its value |
| `Decimal.FormatNatValue` | pkg/downloader/file_downloader.go:47-49 | the printed digits denote the number printed |
| `Decimal.FormatParseRoundTrip` | pkg/downloader/file_downloader.go:37-49 | reading back a printed int64 gives the same number |
| `Decimal.Quote` | pkg/downloader/file_downloader.go:37-40 | the input quoted as the parse error prints it: the escaped characters between double quotes |
| `Decimal.QuotePlain` | pkg/downloader/file_downloader.go:37-40 | a header of printable ASCII without quotes or backslashes appears in the message as it is |
| `Decimal.QuoteEscapesQuote` | pkg/downloader/file_downloader.go:37-40 | the header `1"2` is quoted as `"1\"2"` |
| `Decimal.UnquoteChar` | pkg/downloader/file_downloader.go:37-40 | each character's escape reads back as that character |
| `Decimal.QuoteRoundTrip` | pkg/downloader/file_downloader.go:37-40 | the quoted text between the quotes reads back as the original header, so distinct headers give distinct messages |
| `Paths.Split` | pkg/downloader/zip_downloader.go:57 | splitting at "/" gives at least one piece, and no piece contains "/" |
| `Paths.JoinSplit` | pkg/downloader/zip_downloader.go:57 | re-joining the pieces with "/" restores the original text |
| `Paths.SplitJoin` | pkg/downloader/zip_downloader.go:57 | splitting a join of slash-free pieces gives those pieces back |
| `Paths.SplitAppend` | pkg/downloader/zip_downloader.go:57 | splitting "a/b" gives the pieces of a, then the pieces of b |
| `Paths.JoinIsClean` | pkg/downloader/zip_downloader.go:57 | a join whose last element is a name is already clean, as Join promises |
| `Paths.CleanFromClean` | pkg/downloader/zip_downloader.go:57-60 | cleaning keeps a path in clean shape: no "", no ".", and ".." only leading a relative path |
| `Paths.CleanPathIsClean` | pkg/downloader/zip_downloader.go:60 | every cleaned path has the clean shape |
| `Paths.CleanFromOfClean` | pkg/downloader/zip_downloader.go:60 | cleaning the segments of an already clean path changes nothing |
| `Paths.CleanFromAppend` | pkg/downloader/zip_downloader.go:57-60 | cleaning is a left fold: cleaning s1 + s2 is cleaning s2 onto the cleaned s1 |
| `Paths.RenderParse` | pkg/downloader/zip_downloader.go:57-60 | printing a clean path and cleaning the text gives the same path back |
| `Paths.CleanIdempotent` | pkg/downloader/zip_downloader.go:60 | cleaning twice is cleaning once |
| `Paths.RenderInjective` | pkg/downloader/zip_downloader.go:60 | different clean paths print differently |
| `Paths.RenderNonEmpty` | pkg/downloader/zip_downloader.go:60 | a cleaned path never prints as "" |
| `Paths.JoinIsChild` | pkg/downloader/zip_downloader.go:57 | joining a directory with an entry name folds the name's segments onto the cleaned directory |
| `Paths.ExtendClean` | pkg/bincache/protoc_bincache.go:59-60 | appending plain names to a clean path keeps it clean, and the cleaner does exactly that |
| `Paths.JoinPlainNames` | pkg/bincache/protoc_bincache.go:38 | joining any directory with plain names appends them to the cleaned directory |
| `Paths.AppendToLastSegment` | pkg/bincache/protoc_bincache.go:61-63 | appending ".exe" to a printed path extends its last segment only |
| `Paths.JoinPrefix` | pkg/downloader/zip_downloader.go:60 | one joined segment list plus "/" starts another exactly when the first is a proper prefix of the second |
| `Paths.NoDotSlash` | pkg/downloader/zip_downloader.go:57-60 | a cleaned path never starts with "./" |
| `Paths.NoDoubleSlash` | pkg/downloader/zip_downloader.go:57-60 | a cleaned rooted path never starts with "//" |
| `Paths.InsideGuardCharacterisation` | pkg/downloader/zip_downloader.go:57-62 | the zip-slip guard as written passes an entry exactly when the segments of its joined path continue those of the cleaned destination, and that destination is neither "/" nor "."; a ".." right after them passes too (see Findings) |
| `Paths.GuardLetsEntryClimb` | pkg/downloader/zip_downloader.go:57-62 | with destination "..", the guard as written passes "../x", which lands at "../../x", outside the destination |
| `Paths.SafeGuardCharacterisation` | pkg/downloader/zip_downloader.go:57-62 | the corrected guard passes an entry exactly when its joined path is strictly below the cleaned destination, and that destination is neither "/" nor "." |
| `Paths.GuardSafeBelowNamedDir` | pkg/downloader/zip_downloader.go:57-62 | below a rooted destination, or one ending in a real name, the guard as written and the corrected guard agree |
| `Paths.JoinSlashConcat` | pkg/downloader/zip_downloader.go:57 | joining two non-empty segment lists puts one "/" between their joins |
| `Paths.ClimbsOutJoin` | pkg/downloader/zip_downloader.go:57-62 | a joined run of segments is ".." or starts with "../" exactly when its first segment is ".." |
| `Paths.GuardRefusesDestDirItself` | pkg/downloader/zip_downloader.go:60 | an entry that cleans to the destination itself ("." or "a/..") is refused |
| `Paths.GuardRefusesRootAndDot` | pkg/downloader/zip_downloader.go:60 | with a destination that cleans to "/" or ".", every entry is refused |
| `Paths.RenderOfSegments` | pkg/downloader/zip_downloader.go:60 | only a path with no segments prints as "/" or "." |
| `FileSystem.MkdirAll` | pkg/downloader/zip_downloader.go:70-72 | success keeps every node and adds only directories with the given mode on the way to the path; failure means a file lies on the path |
| `FileSystem.CreateTruncate` | pkg/downloader/zip_downloader.go:80-84 | the target becomes an empty file, keeping an old file's mode; it fails exactly on a directory or a missing parent directory; other nodes are unchanged |
| `FileSystem.CreateExclusive` | pkg/downloader/zip_downloader.go:26-29 | the temporary file is created empty exactly when its name is free and its directory exists |
| `FileSystem.WriteData` | pkg/downloader/zip_downloader.go:86 | the copied bytes replace the file's contents, and nothing else changes |
| `FileSystem.Chmod` | pkg/releases/protoc_downloader.go:161-165 | the mode changes on an existing node only, and a missing node is an error |
| `FileSystem.Remove` | pkg/downloader/zip_downloader.go:30 | a file is removed, a missing name changes nothing, and nothing is ever added or altered |
| `FileSystem.Stat` | pkg/bincache/protoc_bincache.go:66-70 | a found result means the node exists |
| `FileSystem.StatOnTree` | pkg/bincache/protoc_bincache.go:66-70 | on a well-formed tree, stat finds exactly the existing nodes |
| `FileSystem.MkdirAllFailsIff` | pkg/bincache/protoc_bincache.go:79-81 | on a tree, MkdirAll fails exactly when a file lies on the path |
| `FileSystem.MkdirAllKeepsTree` | pkg/bincache/protoc_bincache.go:79-81 | after MkdirAll succeeds the filesystem is still a tree, and every prefix of the path is a directory |
| `FileSystem.DirOnTreeHasDirAncestors` | pkg/downloader/zip_downloader.go:70-72 | in a tree, a stored directory has every ancestor stored as a directory and no file on its path |
| `FileSystem.CreateTruncateKeepsTree` | pkg/downloader/zip_downloader.go:80-84 | creating or truncating a file keeps the tree shape |
| `FileSystem.WriteDataKeepsTree` | pkg/downloader/zip_downloader.go:86 | writing a file's contents keeps the tree shape |
| `FileDownloader.CopyLimited` | pkg/downloader/file_downloader.go:43-46 | at most the declared length and at most the body is copied; the sink holds exactly the copied prefix; a sink failing before the available bytes are copied returns what it took and its error; otherwise all available bytes are copied, and a read error surfaces only when the body ended before the limit |
| `FileDownloader.DownloadFile` | pkg/downloader/file_downloader.go:20-51 | the writer receives a prefix of the body, as many bytes as are reported; an unreachable server writes nothing and returns its error |
| `FileDownloader.DownloadSucceedsIff` | pkg/downloader/file_downloader.go:29-50 | a download succeeds exactly on a 200 reply with a valid in-range Content-Length that the body and the sink can supply; then exactly that many bytes are written |
| `FileDownloader.DownloadBounded` | pkg/downloader/file_downloader.go:29-43 | the bytes written never exceed the body or the declared length, and a reply refused before the copy writes nothing |
| `FileDownloader.BadStatusRefused` | pkg/downloader/file_downloader.go:29-31 | a reply other than 200 writes nothing and reports "bad status: <status>" |
| `FileDownloader.MissingLengthRefused` | pkg/downloader/file_downloader.go:33-36 | a 200 reply without Content-Length writes nothing and reports "Content-Length header is missing" |
| `FileDownloader.MalformedLengthRefused` | pkg/downloader/file_downloader.go:37-40 | an unparseable Content-Length writes nothing and reports the parse error |
| `FileDownloader.ShortBodyReported` | pkg/downloader/file_downloader.go:43-49 | a body shorter than announced is written in full to a writer that can take it; the error is the body's read error, or else "expected N bytes, got M" |
| `FileDownloader.SinkFailureReported` | pkg/downloader/file_downloader.go:43-46 | a writer failing before the announced bytes arrive stops the download with its error and the count it took |
| `ZipDownloader.ExtractDir` | pkg/downloader/zip_downloader.go:64-67 | a directory entry only adds directories, with the entry's mode, on the way to its path, and keeps every existing node |
| `ZipDownloader.ExtractFile` | pkg/downloader/zip_downloader.go:69-92 | a file entry changes only its destination and new directories on the way; on success the destination holds the entry's bytes and its directory exists |
| `ZipDownloader.ExtractEntry` | pkg/downloader/zip_downloader.go:57-92 | with the guard as written: a refused entry aborts with "invalid file path: <name>" and writes nothing; otherwise only its destination and directories on the way to it change; the destination's segments continue the cleaned destination directory's and go strictly down unless that directory is only ".." segments |
| `ZipDownloader.GuardedDest` | pkg/downloader/zip_downloader.go:57-62 | an entry the guard as written admits lands at a path continuing the cleaned destination, strictly below it unless the destination is only ".." segments |
| `ZipDownloader.ExtractionClimbsAboveDotDot` | pkg/downloader/zip_downloader.go:57-92 | with destination "..", the file entry "../x" passes the guard and, in an empty tree, its bytes are written to "../../x", which is not below the destination |
| `ZipDownloader.ConfinedBelowNamedDir` | pkg/downloader/zip_downloader.go:57-62 | for a destination that is not only ".." segments, confinement means every change is strictly below it or a directory on the way to it |
| `ZipDownloader.ExtractEntries` | pkg/downloader/zip_downloader.go:56-93 | with the guard as written, extraction changes only nodes at paths continuing the cleaned destination (strictly below it unless it is only ".." segments) and directories on the way to it, and never changes a node's kind |
| `ZipDownloader.ExtractAll` | pkg/downloader/zip_downloader.go:48-96 | an unreadable archive is "failed to open zip file: <cause>" with nothing written; an empty archive succeeds and changes nothing; other changes are confined as for `ExtractEntries` |
| `ZipDownloader.ExtractEntriesAppend` | pkg/downloader/zip_downloader.go:56-93 | entries are processed in archive order, and what earlier entries wrote stays after a later one fails |
| `ZipDownloader.AbortsAtUnsafeEntry` | pkg/downloader/zip_downloader.go:60-62 | the first entry the guard as written refuses stops extraction with its name, keeping exactly what came before it |
| `ZipDownloader.SuccessMeansAllGuarded` | pkg/downloader/zip_downloader.go:56-95 | a successful extraction passed every entry through the guard as written and read every file entry in full |
| `ZipDownloader.Untouched` | pkg/downloader/zip_downloader.go:56-93 | a node that no file entry lands on is left as it was |
| `ZipDownloader.LastFileEntryWins` | pkg/downloader/zip_downloader.go:80-86 | after success each file holds the bytes of the last file entry that lands on it |
| `ZipDownloader.ExtractEntriesKeepsTree` | pkg/downloader/zip_downloader.go:56-93 | extraction keeps the filesystem a tree |
| `ZipDownloader.DirectoriesPresent` | pkg/downloader/zip_downloader.go:64-72 | after success every file entry's directory exists, and every directory entry is a directory unless a file stands on its path |
| `ZipDownloader.DownloadAndExtract` | pkg/downloader/zip_downloader.go:22-44 | a failed temp-file creation or download changes nothing; the temporary file is gone afterwards; success needs a full download and a readable archive; all other changes are confined to the destination as for `ExtractEntries` |
| `ZipDownloader.DownloadAndExtractFailures` | pkg/downloader/zip_downloader.go:25-52 | "failed to create temp file: <cause>", "failed to download file: <cause>" and "failed to open zip file: <cause>", each with the filesystem as it was |
| `VersionResolver.GetLatestReleaseTag` | pkg/releases/protoc_version_resolver.go:30-49 | the lookup succeeds exactly on a 200 reply whose body decodes, and returns the decoded tag |
| `VersionResolver.ResolveVersion` | pkg/releases/protoc_version_resolver.go:16-28 | any tag but "latest" resolves, minus at most one leading "v"; "latest" succeeds exactly when the lookup does, is trimmed the same way, and otherwise reports "failed to get latest release tag: <cause>" |
| `VersionResolver.OnlyLatestConsultsLookup` | pkg/releases/protoc_version_resolver.go:17-27 | for any tag but "latest" the result does not depend on the release lookup |
| `VersionResolver.LatestTrimmedLikeTag` | pkg/releases/protoc_version_resolver.go:17-25 | "latest" resolves to what its looked-up tag would resolve to if given directly |
| `VersionResolver.ResolveExamples` | pkg/releases/protoc_version_resolver_test.go:33-57 | "v25.3" and "25.3" give "25.3", "v25.3-rc1" gives "25.3-rc1", and "" gives "" |
| `UrlResolver.ResolveURL` | pkg/releases/protoc_url_resolver.go:15-24 | the resolver never fails, and gives an https URL on github.com below the release directory "v" + the trimmed version |
| `UrlResolver.VersionOfFilename` | pkg/releases/protoc_url_resolver.go:61 | a version read back from a file name is the name's length minus "protoc-" and the platform suffix |
| `UrlResolver.FilenameShape` | pkg/releases/protoc_url_resolver.go:26-62 | every file name is "protoc-", the version, then the platform suffix |
| `UrlResolver.FilenameRoundTrip` | pkg/releases/protoc_url_resolver.go:26-62 | the version can be read back out of the file name built for it |
| `UrlResolver.FilenameOnlyFromResolver` | pkg/releases/protoc_url_resolver.go:26-62 | a name that reads back to a version is the name built for that version |
| `UrlResolver.VersionInPath` | pkg/releases/protoc_url_resolver.go:18-22 | the trimmed version sits right after the release directory's "v", and the path's length fixes the version's length |
| `UrlResolver.SameUrlIffSameTrimmedVersion` | pkg/releases/protoc_url_resolver.go:15-24 | two versions give the same URL exactly when they agree once one leading "v" is dropped |
| `UrlResolver.LeadingVIgnored` | pkg/releases/protoc_url_resolver_test.go:22-28 | "v32.1" and "32.1" give identical URLs |
| `UrlResolver.WindowsNaming` | pkg/releases/protoc_url_resolver.go:28-36 | on windows the name ends in "-win32.zip" exactly for "386", and in "-win64.zip" otherwise |
| `UrlResolver.UnknownNamesPassThrough` | pkg/releases/protoc_url_resolver.go:39-61 | a system and architecture outside the table keep their Go names in "protoc-<v>-<os>-<arch>.zip" |
| `UrlResolver.EmptyVersionExample` | pkg/releases/protoc_url_resolver_test.go:141-147 | an empty version gives the release directory "v/" and "protoc-" directly followed by the platform suffix |
| `UrlResolver.LinuxArmExample` | pkg/releases/protoc_url_resolver.go:50-58 | linux/arm64 is named "linux-aarch_64" |
| `UrlResolver.LinuxAmdExample` | pkg/releases/protoc_url_resolver_test.go:88-131 | linux/amd64 is named "linux-x86_64" |
| `UrlResolver.DarwinAmdExample` | pkg/releases/protoc_url_resolver_test.go:88-131 | darwin/amd64 is named "osx-x86_64" |
| `UrlResolver.DarwinArmExample` | pkg/releases/protoc_url_resolver_test.go:88-131 | darwin/arm64 is named "osx-aarch_64" |
| `UrlResolver.Windows32Example` | pkg/releases/protoc_url_resolver_test.go:47-86 | windows/386 is "protoc-25.3-win32.zip" |
| `UrlResolver.Windows64Example` | pkg/releases/protoc_url_resolver_test.go:47-86 | windows on any other architecture is "protoc-25.3-win64.zip" |
| `UrlResolver.UnknownSystemExample` | pkg/releases/protoc_url_resolver.go:39-47 | an unknown system keeps its name |
| `UrlResolver.UnknownArchExample` | pkg/releases/protoc_url_resolver.go:50-58 | an unknown architecture keeps its name |
| `UrlResolver.TrimExamples` | pkg/releases/protoc_url_resolver_test.go:162-168 | one "v" is dropped, and other versions, "" and "-rc1" suffixes included, are kept verbatim |
| `ProtocDownloader.GetDownloadURL` | pkg/releases/protoc_downloader.go:51-62 | the release-tag segment of the URL always starts with "v" |
| `ProtocDownloader.SameFilenameRules` | pkg/releases/protoc_downloader.go:65-101 | this copy of the file name rules is the resolver's, applied to the version minus one "v" |
| `ProtocDownloader.SameUrlAsResolver` | pkg/releases/protoc_downloader.go:51-62 | for every input the URL is "https://github.com" followed by the resolver's path |
| `ProtocDownloader.LeadingVOptional` | pkg/releases/protoc_downloader.go:53-55 | "25.3" and "v25.3" give the same URL |
| `ProtocDownloader.FirstProtocEntry` | pkg/releases/protoc_downloader.go:139-141 | the chosen entry is the first whose name ends in "bin/protoc" or "bin/protoc.exe" |
| `ProtocDownloader.ExtractFile` | pkg/releases/protoc_downloader.go:175-193 | on success the output holds the entry's bytes, and only the output path is changed or added |
| `ProtocDownloader.ExtractProtocFromZip` | pkg/releases/protoc_downloader.go:130-172 | the first protoc entry is written to extractDir/bin/protoc (".exe" on windows) and is mode 0777 off windows; with no such entry the result is "protoc binary not found in archive" and nothing changes |
| `BinCache.NewProtocBinCache` | pkg/bincache/protoc_bincache.go:33-43 | the cache path is the cleaned cache directory plus "go-protoc" |
| `BinCache.BinPath` | pkg/bincache/protoc_bincache.go:51-94 | the version is always resolved first; a returned path is the binary path for the resolved version, and that binary exists |
| `BinCache.Fetch` | pkg/bincache/protoc_bincache.go:73-93 | the URL is resolved before anything is created; success returns the binary path once it exists; every change is at a path continuing the version directory's (strictly below it unless it is only ".." segments) or a directory on the way to it |
| `BinCache.Finish` | pkg/bincache/protoc_bincache.go:84-93 | an extraction error becomes "failed to download and extract: <cause>"; a binary still missing is "binary not found after extraction: <stat error>"; the result is the binary's path exactly when it then exists |
| `BinCache.Extracted` | pkg/bincache/protoc_bincache.go:84 | downloading and extracting into the version directory changes only paths continuing it (strictly below it unless it is only ".." segments) and directories on the way to it |
| `BinCache.MkdirFailureReported` | pkg/bincache/protoc_bincache.go:79-81 | a version directory that cannot be created reports "failed to create cache directory: <cause>" and changes nothing |
| `BinCache.FetchAfterDownload` | pkg/bincache/protoc_bincache.go:79-93 | once the version directory exists, the download is the third call and `Finish` decides the result on the extracted tree |
| `BinCache.MkdirAllConfined` | pkg/bincache/protoc_bincache.go:79-81 | creating the version directory changes nothing outside it |
| `BinCache.BinaryPathShape` | pkg/bincache/protoc_bincache.go:59-63 | the binary is versionDir/bin/protoc, with ".exe" exactly on windows |
| `BinCache.ResolveFailureTouchesNothing` | pkg/bincache/protoc_bincache.go:53-56 | a failed resolution reports "failed to resolve version: <cause>" and touches nothing |
| `BinCache.HitDoesNotFetch` | pkg/bincache/protoc_bincache.go:66-67 | an existing binary is returned without resolving a URL or downloading |
| `BinCache.Idempotent` | pkg/bincache/protoc_bincache.go:66-93 | after a successful call, a second call returns the same path and fetches nothing |
| `BinCache.StatFailureDoesNotFetch` | pkg/bincache/protoc_bincache.go:68-70 | a stat error other than not-exist is exactly "failed to check binary: " followed by the stat error for the binary path, and nothing is fetched |
| `BinCache.UrlFailureCreatesNothing` | pkg/bincache/protoc_bincache.go:73-76 | a URL failure reports "failed to resolve URL: <cause>" before the version directory is created |
| `BinCache.DownloadOnlyOnMiss` | pkg/bincache/protoc_bincache.go:65-73 | the URL resolver is consulted only when the version resolved and its binary does not exist |
| `BinCache.ChangesConfinedToVersionDir` | pkg/bincache/protoc_bincache.go:51-94 | a call changes nothing except nodes at paths continuing the resolved version's directory (strictly below it unless that directory is only ".." segments, as for a resolved version "../.." in cache directory ".") and directories on the way to it |
| `ParseArgs.DashPrefixes` | cmd/go-protoc/parse_args.go:17 | the flag tests on the first characters are Go's prefix tests for "-" and "--" |
| `ParseArgs.IndexOfEqualsFirst` | cmd/go-protoc/parse_args.go:62-64 | the cut falls at the first "=", or at the end when there is none |
| `ParseArgs.StripDashes` | cmd/go-protoc/parse_args.go:55-59 | only a leading "--" or "-" is removed |
| `ParseArgs.ExtractFlagName` | cmd/go-protoc/parse_args.go:52-72 | a flag name is "" or a valid name: non-empty, no "=", not starting with "-" |
| `ParseArgs.FlagNameCharacterisation` | cmd/go-protoc/parse_args.go:52-72 | the name read is a given non-empty name exactly when it is valid and the undashed argument is that name, alone or followed by "=" |
| `ParseArgs.ExtractFlagNameRoundTrip` | cmd/go-protoc/parse_args.go:52-72 | "--name", "--name=value", "-name" and "-name=value" all read back as name |
| `ParseArgs.Tokenize` | cmd/go-protoc/parse_args.go:17-43 | an argument's token is dashed exactly when the argument starts with "-", and a flag token carries "" or a valid name |
| `ParseArgs.Scan` | cmd/go-protoc/parse_args.go:12-45 | at most one name per remaining argument is collected |
| `ParseArgs.ScanFrom` | cmd/go-protoc/parse_args.go:12-45 | at most one name per argument is collected |
| `ParseArgs.ReadFlag` | cmd/go-protoc/parse_args.go:26-38 | one flag-like argument gives its name; a named flag moves past its value, a nameless one only past itself |
| `ParseArgs.ParseArgs` | cmd/go-protoc/parse_args.go:8-48 | the loop computes exactly the flags and the non-flag indicator of the reference scan |
| `ParseArgs.NamesInArgumentOrder` | cmd/go-protoc/parse_args.go:12-45 | each returned name comes from its own flag-like argument, in argument order, and is valid |
| `ParseArgs.ScanAppend` | cmd/go-protoc/parse_args.go:12-45 | with no "--", scanning a list followed by dashed arguments is scanning each part and combining the results |
| `ParseArgs.NamedFlagConsumesValue` | cmd/go-protoc/parse_args.go:26-38 | at any position, a named flag followed by an argument not starting with "-" contributes its name and consumes that argument |
| `ParseArgs.NamedFlagBeforeDash` | cmd/go-protoc/parse_args.go:26-38 | at any position, a named flag followed by a dashed argument or by nothing contributes its name and consumes nothing more |
| `ParseArgs.NamelessFlagSkipped` | cmd/go-protoc/parse_args.go:26-44 | a flag-like argument without a name is passed over alone |
| `ParseArgs.OperandMarks` | cmd/go-protoc/parse_args.go:40-43 | at any position, an argument that is not flag-like, a lone "-" included, marks a non-flag argument and adds no name |
| `ParseArgs.DoubleDashAt` | cmd/go-protoc/parse_args.go:19-24 | at any position, "--" ends the scan, marking a non-flag argument exactly when something follows |
| `ParseArgs.DoubleDashEndsScan` | cmd/go-protoc/parse_args.go:19-24 | "--" ends the scan, and marks non-flag arguments only when something follows it |
| `ParseArgs.FlagThenValue` | cmd/go-protoc/parse_args.go:32-38 | the argument after "--name=value" is consumed as a value when it does not start with "-" |
| `ParseArgs.FlagThenFlags` | cmd/go-protoc/parse_args.go:26-38 | a named flag followed by a dashed argument contributes its name and nothing else |
| `ParseArgs.LoneDashIsNotAFlag` | cmd/go-protoc/parse_args.go:17 | a lone "-" is a non-flag argument |
| `ParseArgs.ValueAfterAssignedFlagSwallowed` | cmd/go-protoc/parse_args.go:32-38 | in "--go_out=." "a.proto" the proto file is taken as the flag's value |
| `ParseArgs.OnlyFlagsExample` | cmd/go-protoc/parse_args_test.go:14-18 | "--n1" "--n2=v" gives the names n1 and n2 and no non-flag argument |
| `ParseArgs.OnlyOperandExample` | cmd/go-protoc/parse_args_test.go:19-23 | "whatever" alone gives no names and a non-flag argument |
| `GoProtoc.ReleaseTag` | cmd/go-protoc/go-protoc.go:29-32 | the tag is the variable's value whenever it is set, even to "", and "latest" otherwise |
| `GoProtoc.AddUnlessSet` | cmd/go-protoc/go-protoc.go:35-46 | the arguments stay a prefix, and one flag is added exactly when its name was not given |
| `GoProtoc.InjectDefaults` | cmd/go-protoc/go-protoc.go:35-46 | the user's arguments stay a prefix, followed by at most the four defaults |
| `GoProtoc.RunProtoc` | cmd/go-protoc/go-protoc.go:27-59 | BinPath is not called exactly when there are no non-flag arguments and the glob fails; otherwise it is called once with the tag; its error is "failed to get protoc binary <tag>: <cause>"; success keeps the user's arguments as a prefix |
| `GoProtoc.GoOutDefault` | cmd/go-protoc/go-protoc.go:16 | the first default is "--go_out=." |
| `GoProtoc.GoOptDefault` | cmd/go-protoc/go-protoc.go:17 | the second default is "--go_opt=paths=source_relative" |
| `GoProtoc.GrpcOutDefault` | cmd/go-protoc/go-protoc.go:18 | the third default is "--go-grpc_out=." |
| `GoProtoc.GrpcOptDefault` | cmd/go-protoc/go-protoc.go:19 | the fourth default is "--go-grpc_opt=paths=source_relative" |
| `GoProtoc.InjectDefaultsByTable` | cmd/go-protoc/go-protoc.go:35-46 | the four checks append exactly the defaults whose names are missing, in table order |
| `GoProtoc.MissingFlagsMembership` | cmd/go-protoc/go-protoc.go:35-46 | a default is among those added exactly when its name is absent |
| `GoProtoc.DefaultAppendedIff` | cmd/go-protoc/go-protoc.go:35-46 | each of the four defaults is appended exactly when its name is absent from the parsed flags |
| `GoProtoc.DefaultsDistinct` | cmd/go-protoc/go-protoc.go:16-19 | the four default flags are pairwise different |
| `GoProtoc.DefaultNamesValid` | cmd/go-protoc/go-protoc.go:16-19 | each default's name is one the argument parser reads back |
| `GoProtoc.ScanMissing` | cmd/go-protoc/go-protoc.go:35-46 | parsing the added defaults gives back their names and no non-flag argument |
| `GoProtoc.DefaultsIdempotent` | cmd/go-protoc/go-protoc.go:34-46 | with no "--", adding defaults a second time adds nothing |
| `GoProtoc.MissingNamesCover` | cmd/go-protoc/go-protoc.go:35-46 | every default's name ends up either given by the user or added |
| `GoProtoc.NothingMissing` | cmd/go-protoc/go-protoc.go:35-46 | when the user set all four, nothing is added |
| `GoProtoc.DoubleDashRepeatsDefaults` | cmd/go-protoc/go-protoc.go:34-46 | after a "--", the defaults are not seen, so a second pass adds them again |
| `GoProtoc.GlobOnlyWithoutOperands` | cmd/go-protoc/go-protoc.go:47-56 | with a non-flag argument the glob is not consulted, and BinPath is called once with the tag |
| `GoProtoc.FinalArguments` | cmd/go-protoc/go-protoc.go:34-53 | the final arguments are the user's, the missing defaults, then the glob matches when no non-flag argument was seen |
| `GoProtoc.TagExamples` | cmd/go-protoc/go-protoc_test.go:199-267 | an unset variable gives "latest"; a set one, even "", is used as it is |

## Left out

- Networking: `http.Get`, response streaming and the GitHub API's JSON decoding in `getLatestReleaseTag` are I/O. A reply is a parameter (`Response`, `LatestRelease`) carrying the status, the Content-Length header, the body, a read error and the decoded tag.
- The zip format: `zip.OpenReader` is a parameter that turns bytes into entries or an error. Each entry's contents are stored, unopenable, or corrupt part-way.
- Process execution, stdio, exit codes, `os.UserCacheDir` and `main` (cmd/go-protoc/go-protoc.go:61-83) are process I/O. The model stops at the command that would be started.
- Glob matching of `**/*.proto` is a parameter returning the matches or an error.
- The temporary file's random name is a parameter. Its capacity is a `Sink` that can fail after a limit.
- `url.URL.String()`'s percent-encoding is not modelled. The URL text is scheme, host and path joined plainly.
- Concurrency, including the unsynchronised check-then-fetch on the cache directory, is outside a sequential model.
- `ProtocDownloader.Download` and `downloadFile` (pkg/releases/protoc_downloader.go:22-49, 104-127) are not part of this model. They are the older downloader's network and orchestration code, which the cache does not use.
- The `Clean` stub of the cache (pkg/bincache/protoc_bincache.go:163-165) does nothing. The interface-only files (bincache.go, downloader.go, url_resolver.go, version_resolver.go) declare no behaviour.
- The cache's `downloadAndExtract` (pkg/bincache/protoc_bincache.go:97-161) repeats `ZipDownloader.DownloadAndExtract` step for step, with the same guard, loop and error messages, so it is modelled once by `ZipDownloader.DownloadAndExtract`. Its "failed to download file" and "failed to open zip file" wrapping of the inlined steps is not distinguished.
- The cache reads `runtime.GOOS` for the binary name and its `goos` field for the URL. The constructor sets both from `runtime.GOOS`, so the model keeps one `goos`.
- `NewProtocBinCache` takes a tag in the cache package, while the command's call site passes one argument and calls `BinPath(tag)`. The model follows the cache package and passes the command's tag through.
- File modes are opaque numbers. No permission checks are made, and symbolic links are not modelled.
- Paths are Unix paths with "/" as the separator. Windows volume names and "\" separators are not modelled.
- `UrlResolver.EmptyVersionExample`: the path is stated as the release prefix followed by "v/protoc-" and the platform suffix for every platform. The literal test string `.../download/v/protoc--linux-x86_64.zip` is not written out; the suffix for linux/amd64 is `-linux-x86_64.zip` by `UrlResolver.LinuxAmdExample`.
- `ParseArgs.OnlyFlagsExample`: the test's `["--version", "--go_out=whatever"]` is stated for any two valid names and any value, rather than for those literal strings.
- `Decimal.Quote`, `Decimal.ParseInt`: the error text quotes the input as `strconv.Quote` does for ASCII. Characters from U+0080 up are written as they are, while Go escapes the non-printable ones (`\u`, `\U`) and invalid UTF-8 bytes (`\x`). Strings here are characters, not bytes.
- `ZipDownloader.DownloadAndExtract`: the embedded `FileDownloader` is taken to be the one `NewFileDownloader()` returns, as the cache sets it (pkg/bincache/protoc_bincache.go:37). `NewZipDownloader()` (pkg/downloader/zip_downloader.go:16-18) leaves that interface nil, so for a receiver built that way the call at pkg/downloader/zip_downloader.go:34 panics once the temporary file exists. That panic, and the deferred close and removal it still runs, are not modelled.
- `CreateExclusive` stands for `os.CreateTemp`. Its `temp` parameter is the name CreateTemp settles on. CreateTemp's retries with fresh random names are not modelled, so a name that is taken stands for CreateTemp giving up.
- Relative paths form their own namespace below a "." that is not stored. ".." is an ordinary absent key there, which `MkdirAll` creates, while on a real filesystem ".." always exists.
- `FileSystem.Stat`: the contract states only that a found node exists. The full equivalence is `FileSystem.StatOnTree`, which needs a well-formed tree.
- Two behaviours of the code are modelled as written. An entry that cleans to the destination directory itself is refused, because the required prefix ends in "/" (`Paths.GuardRefusesDestDirItself`). Only one leading "v" is removed from a resolved version, so "vv1" becomes "v1".

## Findings

| source | as written | input that shows it | evidently intended | confidence | as-written member | corrected member |
|---|---|---|---|---|---|---|
| pkg/downloader/zip_downloader.go:57-62 (the same guard is at pkg/bincache/protoc_bincache.go:122-127) | the joined path must start with the cleaned destination plus "/"; the rest may still start with "..", which is kept when the destination is only ".." segments | destination "..", entry "../x" (pkg/downloader/zip_downloader_test.go:280 uses "../../../malicious.txt"): the entry is written to "../../x", above the destination | every extracted path lies strictly below the destination | not executed | `Paths.GuardLetsEntryClimb`, `ZipDownloader.ExtractionClimbsAboveDotDot` | `Paths.SafeGuardCharacterisation` |

=== FILE: bincache.dfy ===
/** `protocBinCache`: the cache of downloaded protoc releases, one directory
    per version below `<cacheDir>/go-protoc`. `BinPath` resolves the tag,
    returns the cached binary when it is there, and otherwise downloads and
    extracts the release into the version's directory. */
module BinCache {
  import opened Wrappers
  import opened Paths
  import opened FileSystem
  import UrlResolver
  import FileDownloader
  import ZipDownloader

  const DefaultPrefix: string := "go-protoc"

  /** The cache's configuration; `goos` serves both as the platform the
      binary's name depends on and as the one its URL is built for. */
  datatype Cache = Cache(path: string, tag: string, goos: string, goarch: string)

  /** `NewProtocBinCache(cacheDir, tag)` on a host running `goos/goarch`. */
  function NewProtocBinCache(cacheDir: string, tag: string, goos: string, goarch: string): (c: Cache)
    ensures c.tag == tag && c.goos == goos && c.goarch == goarch
    ensures CleanPath(c.path) == Path(CleanPath(cacheDir).rooted, CleanPath(cacheDir).segs + [DefaultPrefix])
  {
    JoinPlainNames(cacheDir, [DefaultPrefix]);
    Cache(Join([cacheDir, DefaultPrefix]), tag, goos, goarch)
  }

  /** Everything `BinPath` consults besides the filesystem: the injected
      resolvers, the server's answer for each URL, the temporary file's name
      and capacity, and the zip reader. */
  datatype Env = Env(
    resolveVersion: string -> Result<string>,
    resolveUrl: (string, string, string) -> Result<UrlResolver.Url>,
    fetch: string -> FileDownloader.Response,
    temp: Path,
    sink: FileDownloader.Sink,
    openZip: Bytes -> Result<seq<ZipDownloader.Entry>>)

  /** The collaborators `BinPath` calls, in order. */
  datatype Call = ResolveVersionCall(tag: string) | ResolveUrlCall(version: string) | DownloadCall(url: string)

  /** The filesystem afterwards, the calls made and the returned path. */
  datatype Run = Run(fs: FS, calls: seq<Call>, result: Result<string>)

  function VersionDir(c: Cache, version: string): string {
    Join([c.path, version])
  }

  /** The binary's path for a version: `versionDir/bin/protoc`, with ".exe"
      appended on windows. */
  function BinaryPath(c: Cache, version: string): string {
    Join([VersionDir(c, version), "bin", "protoc"]) + (if c.goos == "windows" then ".exe" else "")
  }

  /** `BinPath()`. */
  function BinPath(c: Cache, env: Env, fs: FS): (r: Run)
    ensures |r.calls| >= 1 && r.calls[0] == ResolveVersionCall(c.tag)
    ensures r.result.Ok? ==> env.resolveVersion(c.tag).Ok? && r.result.value == BinaryPath(c, env.resolveVersion(c.tag).value)
    ensures r.result.Ok? ==> Stat(r.fs, CleanPath(r.result.value)) == Found
  {
    match env.resolveVersion(c.tag)
    case Err(m) => Run(fs, [ResolveVersionCall(c.tag)], Err(Wrap("failed to resolve version", m)))
    case Ok(version) =>
      var binPath := BinaryPath(c, version);
      var st := Stat(fs, CleanPath(binPath));
      if st == Found then Run(fs, [ResolveVersionCall(c.tag)], Ok(binPath))
      else if st == NotDir then
        Run(fs, [ResolveVersionCall(c.tag)], Err(Wrap("failed to check binary", StatError(binPath, st))))
      else
        Fetch(c, env, fs, version)
  }

  /** The part of `BinPath` after the binary was found missing: resolve the
      URL, create the version directory, download and extract into it, and
      look for the binary again. */
  function Fetch(c: Cache, env: Env, fs: FS, version: string): (r: Run)
    ensures |r.calls| >= 2 && r.calls[0] == ResolveVersionCall(c.tag) && r.calls[1] == ResolveUrlCall(version)
    ensures |r.calls| == 2 ==> r.fs == fs && r.result.Err?
    ensures r.result.Ok? ==>
      |r.calls| == 3 && r.result.value == BinaryPath(c, version) && Stat(r.fs, CleanPath(BinaryPath(c, version))) == Found
    ensures ZipDownloader.Confined(fs, r.fs, CleanPath(VersionDir(c, version)))
  {
    var versionDir := VersionDir(c, version);
    var calls := [ResolveVersionCall(c.tag), ResolveUrlCall(version)];
    match env.resolveUrl(version, c.goos, c.goarch)
    case Err(m) => Run(fs, calls, Err(Wrap("failed to resolve URL", m)))
    case Ok(url) =>
      match MkdirAll(fs, CleanPath(versionDir), DirPerm)
      case Err(m) => Run(fs, calls, Err(Wrap("failed to create cache directory", m)))
      case Ok(fs1) =>
        var text := UrlResolver.UrlText(url);
        var x := Extracted(c, env, fs1, version);
        MkdirAllConfined(fs, CleanPath(versionDir));
        ZipDownloader.ConfinedTransitive(fs, fs1, x.fs, CleanPath(versionDir));
        Finish(c, version, calls + [DownloadCall(text)], x)
  }

  /** The end of `Fetch`: an extraction error is wrapped; otherwise the
      binary is looked for again, and its absence is an error too. */
  function Finish(c: Cache, version: string, calls: seq<Call>, x: ZipDownloader.Extraction): (r: Run)
    ensures r.fs == x.fs && r.calls == calls
    ensures x.err.Some? ==> r.result == Err("failed to download and extract: " + x.err.value)
    ensures var st := Stat(x.fs, CleanPath(BinaryPath(c, version)));
      x.err.None? && st != Found ==>
        r.result == Err("binary not found after extraction: " + StatError(BinaryPath(c, version), st))
    ensures r.result.Ok? <==> x.err.None? && Stat(x.fs, CleanPath(BinaryPath(c, version))) == Found
    ensures r.result.Ok? ==> r.result.value == BinaryPath(c, version)
  {
    var binPath := BinaryPath(c, version);
    if x.err.Some? then
      assert Wrap("failed to download and extract", x.err.value) == "failed to download and extract: " + x.err.value;
      Run(x.fs, calls, Err(Wrap("failed to download and extract", x.err.value)))
    else
      var st := Stat(x.fs, CleanPath(binPath));
      if st != Found then
        var e := StatError(binPath, st);
        assert Wrap("binary not found after extraction", e) == "binary not found after extraction: " + e;
        Run(x.fs, calls, Err(Wrap("binary not found after extraction", e)))
      else Run(x.fs, calls, Ok(binPath))
  }

  /** The download and extraction `Fetch` performs once the version
      directory exists; its changes stay below that directory. */
  function Extracted(c: Cache, env: Env, fs1: FS, version: string): (x: ZipDownloader.Extraction)
    requires env.resolveUrl(version, c.goos, c.goarch).Ok?
    ensures ZipDownloader.Confined(fs1, x.fs, CleanPath(VersionDir(c, version)))
  {
    var text := UrlResolver.UrlText(env.resolveUrl(version, c.goos, c.goarch).value);
    ZipDownloader.DownloadAndExtract(fs1, env.temp, env.fetch(text), env.sink, env.openZip, VersionDir(c, version))
  }

  /** Creating a directory only adds directories on the way to it. */
  lemma MkdirAllConfined(fs: FS, dir: Path)
    ensures MkdirAll(fs, dir, DirPerm).Ok? ==> ZipDownloader.Confined(fs, MkdirAll(fs, dir, DirPerm).value, dir)
  {
  }

  /** The binary's cleaned path is the cleaned version directory followed by
      "bin" and the platform's binary name. */
  lemma BinaryPathShape(c: Cache, version: string)
    ensures var vd := CleanPath(VersionDir(c, version));
      CleanPath(BinaryPath(c, version)) ==
        Path(vd.rooted, vd.segs + ["bin", if c.goos == "windows" then "protoc.exe" else "protoc"])
  {
    var vdText := VersionDir(c, version);
    var vd := CleanPath(vdText);
    var elems := [vdText, "bin", "protoc"];
    var j := Join(elems);
    assert [vdText] + ["bin", "protoc"] == elems;
    JoinPlainNames(vdText, ["bin", "protoc"]);
    JoinIsClean(elems);
    CleanPathIsClean(vdText);
    if c.goos == "windows" {
      WindowsBinaryName(vd);
    } else {
      assert j + "" == j;
    }
  }

  /** Appending ".exe" to the rendered `bin/protoc` path renames the last
      segment only. */
  lemma WindowsBinaryName(vd: Path)
    requires IsClean(vd)
    ensures var p := Path(vd.rooted, vd.segs + ["bin", "protoc"]);
      CleanPath(Render(p) + ".exe") == Path(vd.rooted, vd.segs + ["bin", "protoc.exe"])
  {
    var p := Path(vd.rooted, vd.segs + ["bin", "protoc"]);
    ExtendClean(vd, ["bin", "protoc"]);
    AppendToLastSegment(p, ".exe");
    assert "protoc" + ".exe" == "protoc.exe";
    assert p.segs[..|p.segs| - 1] == vd.segs + ["bin"];
    assert p.segs[..|p.segs| - 1] + [p.segs[|p.segs| - 1] + ".exe"] == vd.segs + ["bin", "protoc.exe"];
  }

  /** A resolution failure returns before anything else is consulted or
      touched. */
  lemma ResolveFailureTouchesNothing(c: Cache, env: Env, fs: FS)
    requires env.resolveVersion(c.tag).Err?
    ensures BinPath(c, env, fs) ==
      Run(fs, [ResolveVersionCall(c.tag)], Err("failed to resolve version: " + env.resolveVersion(c.tag).msg))
  {
  }

  /** A cached binary is returned as it is: no URL is resolved and nothing is
      downloaded or written. */
  lemma HitDoesNotFetch(c: Cache, env: Env, fs: FS)
    requires env.resolveVersion(c.tag).Ok?
    requires Stat(fs, CleanPath(BinaryPath(c, env.resolveVersion(c.tag).value))) == Found
    ensures BinPath(c, env, fs) ==
      Run(fs, [ResolveVersionCall(c.tag)], Ok(BinaryPath(c, env.resolveVersion(c.tag).value)))
  {
  }

  /** A second call after a successful one is a hit: same path, same
      filesystem, and only the version is resolved again. */
  lemma Idempotent(c: Cache, env: Env, fs: FS)
    requires BinPath(c, env, fs).result.Ok?
    ensures var r := BinPath(c, env, fs);
      BinPath(c, env, r.fs) == Run(r.fs, [ResolveVersionCall(c.tag)], r.result)
  {
  }

  /** A path component that is a file is reported, and nothing is fetched. */
  lemma StatFailureDoesNotFetch(c: Cache, env: Env, fs: FS)
    requires env.resolveVersion(c.tag).Ok?
    requires Stat(fs, CleanPath(BinaryPath(c, env.resolveVersion(c.tag).value))) == NotDir
    ensures var r := BinPath(c, env, fs); var v := env.resolveVersion(c.tag).value;
      && r.fs == fs && r.calls == [ResolveVersionCall(c.tag)]
      && r.result == Err("failed to check binary: " + StatError(BinaryPath(c, v), NotDir))
  {
    var v := env.resolveVersion(c.tag).value;
    var m := StatError(BinaryPath(c, v), NotDir);
    assert Wrap("failed to check binary", m) == "failed to check binary: " + m;
  }

  /** A URL failure returns before the version directory is created. */
  lemma UrlFailureCreatesNothing(c: Cache, env: Env, fs: FS)
    requires env.resolveVersion(c.tag).Ok?
    requires var v := env.resolveVersion(c.tag).value;
      Stat(fs, CleanPath(BinaryPath(c, v))) == NotExist && env.resolveUrl(v, c.goos, c.goarch).Err?
    ensures var r := BinPath(c, env, fs);
      r.fs == fs && r.calls == [ResolveVersionCall(c.tag), ResolveUrlCall(env.resolveVersion(c.tag).value)] &&
      r.result == Err("failed to resolve URL: " + env.resolveUrl(env.resolveVersion(c.tag).value, c.goos, c.goarch).msg)
  {
  }

  /** A version directory that cannot be created is reported before any
      download, and the tree is unchanged. */
  lemma MkdirFailureReported(c: Cache, env: Env, fs: FS, version: string)
    requires env.resolveUrl(version, c.goos, c.goarch).Ok?
    requires MkdirAll(fs, CleanPath(VersionDir(c, version)), DirPerm).Err?
    ensures Fetch(c, env, fs, version) == Run(fs, [ResolveVersionCall(c.tag), ResolveUrlCall(version)],
      Err("failed to create cache directory: " + MkdirAll(fs, CleanPath(VersionDir(c, version)), DirPerm).msg))
  {
    var m := MkdirAll(fs, CleanPath(VersionDir(c, version)), DirPerm).msg;
    assert Wrap("failed to create cache directory", m) == "failed to create cache directory: " + m;
  }

  /** Once the version directory exists, the URL is downloaded and extracted
      into it and `Finish` decides the result on the tree that left. */
  lemma FetchAfterDownload(c: Cache, env: Env, fs: FS, version: string)
    requires env.resolveUrl(version, c.goos, c.goarch).Ok?
    requires MkdirAll(fs, CleanPath(VersionDir(c, version)), DirPerm).Ok?
    ensures Fetch(c, env, fs, version) ==
      Finish(c, version,
        [ResolveVersionCall(c.tag), ResolveUrlCall(version),
         DownloadCall(UrlResolver.UrlText(env.resolveUrl(version, c.goos, c.goarch).value))],
        Extracted(c, env, MkdirAll(fs, CleanPath(VersionDir(c, version)), DirPerm).value, version))
  {
  }

  /** A download happens only when the binary was missing. */
  lemma DownloadOnlyOnMiss(c: Cache, env: Env, fs: FS)
    requires |BinPath(c, env, fs).calls| > 1
    ensures env.resolveVersion(c.tag).Ok?
    ensures Stat(fs, CleanPath(BinaryPath(c, env.resolveVersion(c.tag).value))) == NotExist
  {
  }

  /** Whatever happens, `BinPath` changes nothing outside the version
      directory except the directories leading to it. */
  lemma ChangesConfinedToVersionDir(c: Cache, env: Env, fs: FS)
    requires env.resolveVersion(c.tag).Ok?
    ensures ZipDownloader.Confined(fs, BinPath(c, env, fs).fs, CleanPath(VersionDir(c, env.resolveVersion(c.tag).value)))
  {
  }
}

=== FILE: decimal.dfy ===
/** Base-10 conversions the downloader relies on: Go's `strconv.ParseInt(s, 10, 64)`
    for the Content-Length header and `%d` formatting for its error messages. */
module Decimal {
  import opened Wrappers

  const MaxInt64: int := 0x7fff_ffff_ffff_ffff
  const MinInt64: int := -0x8000_0000_0000_0000
  const MaxUint64: int := 0xffff_ffff_ffff_ffff

  predicate IsDigit(c: char) {
    '0' <= c <= '9'
  }

  predicate AllDigits(s: string) {
    forall i :: 0 <= i < |s| ==> IsDigit(s[i])
  }

  function DigitValue(c: char): (d: nat)
    requires IsDigit(c)
    ensures d < 10
  {
    c as int - '0' as int
  }

  function DigitChar(d: nat): (c: char)
    requires d < 10
    ensures IsDigit(c) && DigitValue(c) == d
  {
    ('0' as int + d) as char
  }

  /** The number a digit string denotes, read from its last digit: the
      declarative counterpart of the left-to-right scan below. */
  function DigitsValue(s: string): nat
    requires AllDigits(s)
    decreases |s|
  {
    if |s| == 0 then 0 else 10 * DigitsValue(s[..|s| - 1]) + DigitValue(s[|s| - 1])
  }

  /** A `%d` rendering of a natural number: no sign, no leading zeros. */
  function FormatNat(n: nat): (s: string)
    ensures 1 <= |s| && AllDigits(s)
    ensures |s| > 1 ==> s[0] != '0'
    decreases n
  {
    if n < 10 then [DigitChar(n)] else FormatNat(n / 10) + [DigitChar(n % 10)]
  }

  /** `fmt.Sprintf("%d", n)`. */
  function FormatInt(n: int): string {
    if n < 0 then "-" + FormatNat(-n) else FormatNat(n)
  }

  /** The two failure kinds of `strconv.ParseUint`/`ParseInt`. */
  datatype NumError = Syntax | Range

  /** The outcome of the digit loop. */
  datatype Scan = Value(n: nat) | Failed(e: NumError)

  /** The text of a `*strconv.NumError` reported by `ParseInt` for input `s`. */
  function NumErrorText(s: string, e: NumError): string {
    "strconv.ParseInt: parsing " + Quote(s) + ": " + (if e == Syntax then "invalid syntax" else "value out of range")
  }

  /** `strconv.Quote(s)`: the escaped characters between double quotes. */
  function Quote(s: string): (q: string)
    ensures |q| >= 2 && q[0] == '\"' && q[|q| - 1] == '\"'
    ensures q[1..|q| - 1] == QuoteBody(s)
  {
    "\"" + QuoteBody(s) + "\""
  }

  function QuoteBody(s: string): string
    decreases |s|
  {
    if s == "" then "" else QuoteChar(s[0]) + QuoteBody(s[1..])
  }

  const LowerHex: string := "0123456789abcdef"

  /** How `strconv.Quote` writes one character: the quote and the backslash
      are escaped, the ASCII control characters take their short escape or
      `\xHH` with lower-case digits, and every other character stands for
      itself. */
  function QuoteChar(c: char): string {
    if c == '\"' then "\\\""
    else if c == '\\' then "\\\\"
    else if c as int == 7 then "\\a"
    else if c as int == 8 then "\\b"
    else if c as int == 12 then "\\f"
    else if c == '\n' then "\\n"
    else if c == '\r' then "\\r"
    else if c == '\t' then "\\t"
    else if c as int == 11 then "\\v"
    else if c as int < 0x20 || c as int == 0x7f then "\\x" + [LowerHex[c as int / 16], LowerHex[c as int % 16]]
    else [c]
  }

  /** Printable ASCII other than the quote and the backslash. */
  predicate PlainChar(c: char) {
    0x20 <= c as int < 0x7f && c != '\"' && c != '\\'
  }

  /** A string of plain characters is quoted as it is. */
  lemma {:induction false} QuotePlain(s: string)
    requires forall i :: 0 <= i < |s| ==> PlainChar(s[i])
    ensures Quote(s) == "\"" + s + "\""
  {
    QuoteBodyPlain(s);
  }

  lemma {:induction false} QuoteBodyPlain(s: string)
    requires forall i :: 0 <= i < |s| ==> PlainChar(s[i])
    ensures QuoteBody(s) == s
    decreases |s|
  {
    if s != "" {
      QuoteBodyPlain(s[1..]);
      assert s == [s[0]] + s[1..];
    }
  }

  /** The error text for a Content-Length of `1"2` escapes the quote. */
  lemma QuoteEscapesQuote()
    ensures Quote("1\"2") == "\"1\\\"2\""
  {
    assert QuoteBody("2") == "2";
    assert QuoteBody("\"2") == "\\\"" + "2";
    assert QuoteBody("1\"2") == "1" + ("\\\"" + "2");
  }

  /** The value of a lower-case hex digit, or -1. */
  function HexValue(d: char): (v: int)
    ensures -1 <= v < 16
  {
    if '0' <= d <= '9' then d as int - '0' as int
    else if 'a' <= d <= 'f' then d as int - 'a' as int + 10
    else -1
  }

  function Prepend(c: char, r: Option<string>): Option<string> {
    if r.Some? then Some([c] + r.value) else None
  }

  /** Reading a quoted body back: the escapes `QuoteChar` writes are decoded,
      and an unescaped quote, a dangling backslash or an unknown escape is
      rejected. */
  function Unquote(t: string): Option<string>
    decreases |t|
  {
    if t == "" then Some("")
    else if t[0] == '\"' then None
    else if t[0] != '\\' then Prepend(t[0], Unquote(t[1..]))
    else if |t| < 2 then None
    else
      var e := t[1];
      if e == '\"' || e == '\\' then Prepend(e, Unquote(t[2..]))
      else if e == 'a' then Prepend(7 as char, Unquote(t[2..]))
      else if e == 'b' then Prepend(8 as char, Unquote(t[2..]))
      else if e == 'f' then Prepend(12 as char, Unquote(t[2..]))
      else if e == 'n' then Prepend('\n', Unquote(t[2..]))
      else if e == 'r' then Prepend('\r', Unquote(t[2..]))
      else if e == 't' then Prepend('\t', Unquote(t[2..]))
      else if e == 'v' then Prepend(11 as char, Unquote(t[2..]))
      else if e == 'x' && |t| >= 4 && HexValue(t[2]) >= 0 && HexValue(t[3]) >= 0 then
        Prepend((16 * HexValue(t[2]) + HexValue(t[3])) as char, Unquote(t[4..]))
      else None
  }

  /** One escaped character is read back as itself. */
  lemma UnquoteChar(c: char, rest: string)
    ensures Unquote(QuoteChar(c) + rest) == Prepend(c, Unquote(rest))
  {
    var t := QuoteChar(c) + rest;
    var n := c as int;
    if c != '\"' && c != '\\' && n != 7 && n != 8 && n != 12 && c != '\n' && c != '\r' && c != '\t' && n != 11 {
      if n < 0x20 || n == 0x7f {
        assert t[0] == '\\' && t[1] == 'x' && t[2] == LowerHex[n / 16] && t[3] == LowerHex[n % 16];
        assert HexValue(LowerHex[n / 16]) == n / 16;
        assert HexValue(LowerHex[n % 16]) == n % 16;
        assert t[4..] == rest;
      } else {
        assert t[0] == c && t[1..] == rest;
      }
    } else {
      assert t[2..] == rest;
    }
  }

  /** Quoting loses nothing: the body reads back as the original string. */
  lemma {:induction false} UnquoteQuoteBody(s: string)
    ensures Unquote(QuoteBody(s)) == Some(s)
    decreases |s|
  {
    if s != "" {
      UnquoteQuoteBody(s[1..]);
      UnquoteChar(s[0], QuoteBody(s[1..]));
      assert s == [s[0]] + s[1..];
    }
  }

  /** `strconv.Quote` is injective: its result between the quotes reads back
      as the argument. */
  lemma QuoteRoundTrip(s: string)
    ensures var q := Quote(s); Unquote(q[1..|q| - 1]) == Some(s)
  {
    UnquoteQuoteBody(s);
  }

  /** The digit loop of `strconv.ParseUint(s, 10, 64)`: left to right, failing
      on the first non-digit, or with a range error as soon as the running value
      would pass the largest uint64 (before any later character is looked at). */
  function ScanDigits(s: string, i: nat, acc: nat): (r: Scan)
    requires i <= |s| && acc <= MaxUint64
    ensures r.Value? ==> r.n <= MaxUint64
    decreases |s| - i
  {
    if i == |s| then Value(acc)
    else if !IsDigit(s[i]) then Failed(Syntax)
    else if 10 * acc + DigitValue(s[i]) > MaxUint64 then Failed(Range)
    else ScanDigits(s, i + 1, 10 * acc + DigitValue(s[i]))
  }

  /** `strconv.ParseInt(s, 10, 64)`. */
  function ParseInt(s: string): (r: Result<int>)
    ensures r.Ok? ==> MinInt64 <= r.value <= MaxInt64
  {
    if s == "" then Err(NumErrorText(s, Syntax))
    else
      var neg := s[0] == '-';
      var digits := if s[0] == '+' || s[0] == '-' then s[1..] else s;
      if digits == "" then Err(NumErrorText(s, Syntax))
      else
        var u := ScanDigits(digits, 0, 0);
        if u.Failed? then Err(NumErrorText(s, u.e))
        else if !neg && u.n > MaxInt64 then Err(NumErrorText(s, Range))
        else if neg && u.n > -MinInt64 then Err(NumErrorText(s, Range))
        else Ok(if neg then 0 - u.n as int else u.n as int)
  }

  /** The literals `ParseInt` accepts: an optional sign and at least one digit. */
  predicate IsDecimalLiteral(s: string) {
    |s| > 0 && var digits := if s[0] == '+' || s[0] == '-' then s[1..] else s;
    |digits| > 0 && AllDigits(digits)
  }

  /** The value of such a literal, by the declarative reading. */
  function LiteralValue(s: string): int
    requires IsDecimalLiteral(s)
  {
    var digits := if s[0] == '+' || s[0] == '-' then s[1..] else s;
    if s[0] == '-' then 0 - DigitsValue(digits) as int else DigitsValue(digits) as int
  }

  lemma {:induction false} DigitsValuePrefix(s: string, j: nat)
    requires AllDigits(s) && j <= |s|
    ensures DigitsValue(s[..j]) <= DigitsValue(s)
    decreases |s|
  {
    if j < |s| {
      assert s[..|s| - 1][..j] == s[..j];
      DigitsValuePrefix(s[..|s| - 1], j);
    } else {
      assert s[..j] == s;
    }
  }

  /** The scan computes the declarative value whenever it fits in 64 bits. */
  lemma {:induction false} ScanDigitsValue(s: string, i: nat)
    requires AllDigits(s) && i <= |s| && DigitsValue(s) <= MaxUint64
    ensures DigitsValue(s[..i]) <= MaxUint64
    ensures ScanDigits(s, i, DigitsValue(s[..i])) == Value(DigitsValue(s))
    decreases |s| - i
  {
    DigitsValuePrefix(s, i);
    if i == |s| {
      assert s[..i] == s;
    } else {
      assert s[..i + 1][..i] == s[..i];
      DigitsValuePrefix(s, i + 1);
      ScanDigitsValue(s, i + 1);
    }
  }

  /** A scan that succeeds read only digits, and its value is the declarative one. */
  lemma {:induction false} ScanDigitsSound(s: string, i: nat)
    requires i <= |s| && AllDigits(s[..i]) && DigitsValue(s[..i]) <= MaxUint64
    requires ScanDigits(s, i, DigitsValue(s[..i])).Value?
    ensures AllDigits(s) && ScanDigits(s, i, DigitsValue(s[..i])).n == DigitsValue(s)
    decreases |s| - i
  {
    if i == |s| {
      assert s[..i] == s;
    } else {
      assert s[..i + 1][..i] == s[..i];
      ScanDigitsSound(s, i + 1);
    }
  }

  /** `ParseInt` succeeds exactly on in-range decimal literals, with their value. */
  lemma ParseIntCharacterisation(s: string)
    ensures ParseInt(s).Ok? <==> IsDecimalLiteral(s) && MinInt64 <= LiteralValue(s) <= MaxInt64
    ensures ParseInt(s).Ok? ==> ParseInt(s).value == LiteralValue(s)
  {
    if s != "" {
      var digits := if s[0] == '+' || s[0] == '-' then s[1..] else s;
      if digits != "" {
        assert digits[..0] == "";
        if ScanDigits(digits, 0, 0).Value? {
          ScanDigitsSound(digits, 0);
        } else if AllDigits(digits) && DigitsValue(digits) <= MaxUint64 {
          ScanDigitsValue(digits, 0);
        }
      }
    }
  }

  lemma {:induction false} FormatNatValue(n: nat)
    ensures DigitsValue(FormatNat(n)) == n
    decreases n
  {
    if n >= 10 {
      var s := FormatNat(n);
      assert s[..|s| - 1] == FormatNat(n / 10);
      FormatNatValue(n / 10);
    }
  }

  /** Formatting then parsing returns every int64 unchanged. */
  lemma FormatParseRoundTrip(n: int)
    requires MinInt64 <= n <= MaxInt64
    ensures ParseInt(FormatInt(n)) == Ok(n)
  {
    var s := FormatInt(n);
    if n < 0 {
      FormatNatValue(-n);
      assert s[1..] == FormatNat(-n);
    } else {
      FormatNatValue(n);
    }
    ParseIntCharacterisation(s);
  }
}

=== FILE: file_downloader.dfy ===
/** `fileDownloader.DownloadFile`: an HTTP GET whose body is copied to a
    writer, bounded by and checked against the Content-Length header. The
    network exchange is a parameter, and so is the writer's capacity. */
module FileDownloader {
  import opened Wrappers
  import opened Decimal

  type Bytes = seq<bv8>

  /** What `http.Get` produced: a transport error, or a reply whose body
      ends after `body` either cleanly or with the read error `readErr`. */
  datatype Response =
    | Unreachable(err: string)
    | Reply(statusCode: int, status: string, contentLength: string, body: Bytes, readErr: Option<string>)

  /** The destination writer: it accepts everything, or fails once `limit`
      bytes have been written. */
  datatype Sink = Unlimited | FailsAfter(limit: nat, err: string)

  /** The outcome: the byte count returned, the bytes the writer received
      and the error, if any. */
  datatype Transfer = Transfer(written: nat, sunk: Bytes, err: Option<string>)

  const StatusOK: int := 200

  /** The writer accepts `n` bytes without failing. */
  predicate Accepts(sink: Sink, n: nat) {
    sink.Unlimited? || n <= sink.limit
  }

  /** `io.Copy(w, io.LimitReader(body, limit))`: at most `limit` bytes (none
      when `limit` is not positive) are read; the copy stops at the writer's
      failure, at the limit, or at the end of the body, where a read error
      surfaces only if the limit was not reached first. */
  function CopyLimited(body: Bytes, readErr: Option<string>, limit: int, sink: Sink): (t: Transfer)
    ensures t.sunk <= body && |t.sunk| == t.written
    ensures t.written <= (if limit < 0 then 0 else limit)
    ensures t.err.None? <==> (Accepts(sink, t.written) &&
      (t.written == limit || (t.written == |body| && limit > |body| && readErr.None?) || (limit < 0 && t.written == 0)))
    ensures var avail := if limit < 0 then 0 else if limit < |body| then limit else |body|;
      sink.FailsAfter? && sink.limit < avail ==> t == Transfer(sink.limit, body[..sink.limit], Some(sink.err))
    ensures var avail := if limit < 0 then 0 else if limit < |body| then limit else |body|;
      !(sink.FailsAfter? && sink.limit < avail) ==>
        t.written == avail && t.err == (if avail < limit then readErr else None)
  {
    var want := if limit < 0 then 0 else limit;
    var avail := if want < |body| then want else |body|;
    if sink.FailsAfter? && sink.limit < avail then
      Transfer(sink.limit, body[..sink.limit], Some(sink.err))
    else if avail < want && readErr.Some? then
      Transfer(avail, body[..avail], readErr)
    else
      Transfer(avail, body[..avail], None)
  }

  /** `DownloadFile`: the status must be 200 OK and Content-Length must be
      present and a decimal int64; then exactly that many bytes must reach
      the writer. */
  function DownloadFile(resp: Response, sink: Sink): (t: Transfer)
    ensures resp.Reply? ==> t.sunk <= resp.body && |t.sunk| == t.written
    ensures resp.Unreachable? ==> t == Transfer(0, [], Some(resp.err))
  {
    match resp
    case Unreachable(e) => Transfer(0, [], Some(e))
    case Reply(code, status, header, body, readErr) =>
      if code != StatusOK then Transfer(0, [], Some("bad status: " + status))
      else if header == "" then Transfer(0, [], Some("Content-Length header is missing"))
      else match ParseInt(header)
        case Err(m) => Transfer(0, [], Some(Wrap("failed to parse Content-Length", m)))
        case Ok(expected) =>
          var c := CopyLimited(body, readErr, expected, sink);
          if c.err.Some? then c
          else if c.written != expected then
            Transfer(c.written, c.sunk, Some("expected " + FormatInt(expected) + " bytes, got " + FormatInt(c.written)))
          else c
  }

  /** A download succeeds exactly when the reply is 200 OK, announces a
      length `n` the body can supply and the writer can take, and then the
      writer holds exactly the first `n` bytes of the body. */
  lemma DownloadSucceedsIff(resp: Response, sink: Sink)
    ensures DownloadFile(resp, sink).err.None? <==>
      && resp.Reply? && resp.statusCode == StatusOK
      && IsDecimalLiteral(resp.contentLength)
      && 0 <= LiteralValue(resp.contentLength) <= MaxInt64
      && LiteralValue(resp.contentLength) <= |resp.body|
      && Accepts(sink, LiteralValue(resp.contentLength))
    ensures DownloadFile(resp, sink).err.None? ==>
      && DownloadFile(resp, sink).written == LiteralValue(resp.contentLength)
      && DownloadFile(resp, sink).sunk == resp.body[..LiteralValue(resp.contentLength)]
  {
    if resp.Reply? && resp.statusCode == StatusOK {
      ParseIntCharacterisation(resp.contentLength);
      if resp.contentLength == "" {
        assert !IsDecimalLiteral(resp.contentLength);
      }
    }
  }

  /** Whatever happens, no more bytes than the body holds or the header
      announces reach the writer, and every failure before the copy leaves
      the writer untouched. */
  lemma DownloadBounded(resp: Response, sink: Sink)
    requires resp.Reply?
    ensures DownloadFile(resp, sink).written <= |resp.body|
    ensures resp.statusCode == StatusOK && ParseInt(resp.contentLength).Ok? ==>
      DownloadFile(resp, sink).written as int <= (if ParseInt(resp.contentLength).value < 0 then 0 else ParseInt(resp.contentLength).value)
    ensures !(resp.statusCode == StatusOK && resp.contentLength != "" && ParseInt(resp.contentLength).Ok?) ==>
      DownloadFile(resp, sink).written == 0 && DownloadFile(resp, sink).sunk == []
  {
  }

  /** A reply other than 200 OK is refused with its status line, before any
      byte is copied. */
  lemma BadStatusRefused(resp: Response, sink: Sink)
    requires resp.Reply? && resp.statusCode != StatusOK
    ensures DownloadFile(resp, sink) == Transfer(0, [], Some("bad status: " + resp.status))
  {
  }

  /** A 200 reply without a Content-Length header is refused before any byte
      is copied. */
  lemma MissingLengthRefused(resp: Response, sink: Sink)
    requires resp.Reply? && resp.statusCode == StatusOK && resp.contentLength == ""
    ensures DownloadFile(resp, sink) == Transfer(0, [], Some("Content-Length header is missing"))
  {
  }

  /** A Content-Length that is not a decimal int64 stops the download before
      any byte is copied, with the parser's message. */
  lemma MalformedLengthRefused(resp: Response, sink: Sink)
    requires resp.Reply? && resp.statusCode == StatusOK && resp.contentLength != ""
    requires ParseInt(resp.contentLength).Err?
    ensures DownloadFile(resp, sink) ==
      Transfer(0, [], Some("failed to parse Content-Length: " + ParseInt(resp.contentLength).msg))
  {
    var m := ParseInt(resp.contentLength).msg;
    assert Wrap("failed to parse Content-Length", m) == "failed to parse Content-Length: " + m;
  }

  /** A body shorter than announced is copied in full into a writer that can
      take it, and the shortfall is reported: by the read error the body
      ended with, or else with both counts. */
  lemma ShortBodyReported(resp: Response, sink: Sink, n: int)
    requires resp.Reply? && resp.statusCode == StatusOK && resp.contentLength != ""
    requires ParseInt(resp.contentLength) == Ok(n) && n > |resp.body|
    requires Accepts(sink, |resp.body|)
    ensures DownloadFile(resp, sink).written == |resp.body|
    ensures DownloadFile(resp, sink).sunk == resp.body
    ensures DownloadFile(resp, sink).err ==
      if resp.readErr.Some? then resp.readErr
      else Some("expected " + FormatInt(n) + " bytes, got " + FormatInt(|resp.body|))
  {
    assert resp.body[..|resp.body|] == resp.body;
  }

  /** A writer that fails part-way stops the download with its own error,
      and the count is what it took before failing. */
  lemma SinkFailureReported(resp: Response, sink: Sink, n: int)
    requires resp.Reply? && resp.statusCode == StatusOK && resp.contentLength != ""
    requires ParseInt(resp.contentLength) == Ok(n)
    requires sink.FailsAfter? && sink.limit < n && sink.limit < |resp.body|
    ensures DownloadFile(resp, sink) == Transfer(sink.limit, resp.body[..sink.limit], Some(sink.err))
  {
  }
}

=== FILE: filesystem.dfy ===
/** An abstract local filesystem: a map from cleaned paths to nodes, with the
    handful of `os` operations the program performs on it. The root "/" and
    the working directory "." are directories that always exist and are not
    stored in the map. */
module FileSystem {
  import opened Wrappers
  import opened Paths

  type Bytes = seq<bv8>

  /** Permission bits, kept as an opaque number. */
  type FileMode = nat

  /** `os.ModePerm`, 0o777. */
  const ModePerm: FileMode := 511

  /** The mode `extractAll` and `BinPath` pass to `MkdirAll`, 0o755. */
  const DirPerm: FileMode := 493

  datatype Node = Dir(mode: FileMode) | File(mode: FileMode, data: Bytes)

  type FS = map<Path, Node>

  /** A tree: keys are clean paths, and every stored node below the top level
      sits in a stored directory. */
  predicate WellFormed(fs: FS) {
    && (forall k :: k in fs ==> IsClean(k) && |k.segs| > 0)
    && (forall k :: k in fs && |k.segs| > 1 ==> Parent(k) in fs && fs[Parent(k)].Dir?)
  }

  /** `os.Stat(p)` succeeds: something, file or directory, is stored there
      (or it is the root or the working directory). */
  predicate Exists(fs: FS, p: Path) {
    |p.segs| == 0 || p in fs
  }

  /** A directory is at `p`: the root, the working directory or a stored one. */
  predicate IsDirAt(fs: FS, p: Path) {
    |p.segs| == 0 || (p in fs && fs[p].Dir?)
  }

  /** Some prefix of `p`, or `p` itself, is a regular file. */
  predicate FileOnPath(fs: FS, p: Path) {
    exists a :: a in fs && AncestorOrSelf(a, p) && fs[a].File?
  }

  /** `os.MkdirAll(p, mode)`, following Go's recursion: a stored directory
      ends the walk, a stored file is an ENOTDIR error, a missing node is
      created after its parent. A failure changes nothing. */
  function MkdirAll(fs: FS, p: Path, mode: FileMode): (r: Result<FS>)
    ensures r.Ok? ==> fs.Keys <= r.value.Keys && forall k :: k in fs ==> r.value[k] == fs[k]
    ensures r.Ok? ==> forall k :: k in r.value && k !in fs ==>
      AncestorOrSelf(k, p) && |k.segs| > 0 && r.value[k] == Dir(mode)
    ensures r.Ok? && |p.segs| > 0 ==> p in r.value && r.value[p].Dir?
    ensures r.Err? ==> FileOnPath(fs, p)
    decreases |p.segs|
  {
    if |p.segs| == 0 then Ok(fs)
    else if p in fs then
      if fs[p].Dir? then Ok(fs) else Err("mkdir " + Render(p) + ": not a directory")
    else
      match MkdirAll(fs, Parent(p), mode)
      case Err(e) => Err(e)
      case Ok(fs1) => Ok(fs1[p := Dir(mode)])
  }

  /** `os.OpenFile(p, O_WRONLY|O_CREATE|O_TRUNC, mode)`: an existing file is
      emptied and keeps its mode, a missing one is created with `mode`; a
      directory, or a parent that is not a directory, is an error. */
  function CreateTruncate(fs: FS, p: Path, mode: FileMode): (r: Result<FS>)
    ensures r.Ok? ==> r.value.Keys == fs.Keys + {p}
    ensures r.Ok? ==> r.value[p] == File(if p in fs then fs[p].mode else mode, [])
    ensures r.Ok? ==> forall k :: k in fs && k != p ==> r.value[k] == fs[k]
    ensures r.Err? <==> IsDirAt(fs, p) || !IsDirAt(fs, Parent(p))
  {
    if |p.segs| == 0 || (p in fs && fs[p].Dir?) then Err("open " + Render(p) + ": is a directory")
    else if |p.segs| > 1 && Parent(p) !in fs then Err("open " + Render(p) + ": no such file or directory")
    else if |p.segs| > 1 && fs[Parent(p)].File? then Err("open " + Render(p) + ": not a directory")
    else Ok(fs[p := File(if p in fs then fs[p].mode else mode, [])])
  }

  /** The mode `os.CreateTemp` creates its file with, 0o600. */
  const TempPerm: FileMode := 384

  /** `os.OpenFile(p, O_RDWR|O_CREATE|O_EXCL, mode)`, the call `os.CreateTemp`
      makes for the name it picked: the name must be free and its directory
      must exist. */
  function CreateExclusive(fs: FS, p: Path, mode: FileMode): (r: Result<FS>)
    ensures r.Ok? <==> !Exists(fs, p) && IsDirAt(fs, Parent(p))
    ensures r.Ok? ==> r.value == fs[p := File(mode, [])]
  {
    if Exists(fs, p) then Err("open " + Render(p) + ": file exists")
    else if |p.segs| > 1 && Parent(p) !in fs then Err("open " + Render(p) + ": no such file or directory")
    else if |p.segs| > 1 && fs[Parent(p)].File? then Err("open " + Render(p) + ": not a directory")
    else Ok(fs[p := File(mode, [])])
  }

  /** Writing `data` to an open, freshly truncated file. */
  function WriteData(fs: FS, p: Path, data: Bytes): (r: FS)
    requires p in fs && fs[p].File?
    ensures r.Keys == fs.Keys && r[p] == File(fs[p].mode, data)
    ensures forall k :: k in fs && k != p ==> r[k] == fs[k]
  {
    fs[p := File(fs[p].mode, data)]
  }

  /** `os.Chmod(p, mode)` on an existing node. */
  function Chmod(fs: FS, p: Path, mode: FileMode): (r: Result<FS>)
    ensures r.Ok? <==> p in fs
    ensures r.Ok? ==> r.value == fs[p := fs[p].(mode := mode)]
  {
    if p in fs then Ok(fs[p := fs[p].(mode := mode)])
    else Err("chmod " + Render(p) + ": no such file or directory")
  }

  /** `os.Remove(p)` with its error ignored, as every caller here does: a file
      or an empty directory disappears, anything else is left as it is. */
  function Remove(fs: FS, p: Path): (r: FS)
    ensures p in fs && fs[p].File? ==> r == fs - {p}
    ensures p !in fs ==> r == fs
    ensures r.Keys <= fs.Keys && forall k :: k in r ==> r[k] == fs[k]
  {
    if p in fs && (fs[p].File? || !(exists k :: k in fs && SegmentsExtend(k, p))) then fs - {p} else fs
  }

  /** The outcome of `os.Stat`: the node is there, a component is missing
      (`os.IsNotExist` holds), or a component is a file (ENOTDIR, for which
      `os.IsNotExist` does not hold). */
  datatype StatResult = Found | NotExist | NotDir

  /** `os.Stat` resolves a path component by component: every proper prefix
      must be a directory and the last component must be stored. */
  function Stat(fs: FS, p: Path): (r: StatResult)
    ensures r == Found ==> Exists(fs, p)
    decreases |p.segs|
  {
    if |p.segs| == 0 then Found
    else
      var above := Stat(fs, Parent(p));
      if above != Found then above
      else if !IsDirAt(fs, Parent(p)) then NotDir
      else if p in fs then Found
      else NotExist
  }

  /** The message of a failed `os.Stat(name)`. */
  function StatError(name: string, r: StatResult): string {
    "stat " + name + (if r == NotDir then ": not a directory" else ": no such file or directory")
  }

  /** In a tree, `os.Stat` finds exactly the stored nodes. */
  lemma {:induction false} StatOnTree(fs: FS, p: Path)
    requires WellFormed(fs)
    ensures Stat(fs, p) == Found <==> Exists(fs, p)
    decreases |p.segs|
  {
    if |p.segs| > 0 {
      StatOnTree(fs, Parent(p));
      if p in fs && |p.segs| > 1 {
        assert Parent(p) in fs && fs[Parent(p)].Dir?;
      }
    }
  }

  /** Nodes never change kind, and directories never change at all. */
  predicate KindsKept(fs: FS, fs': FS) {
    forall k :: k in fs ==> k in fs' && (fs[k].Dir? ==> fs'[k] == fs[k]) && (fs[k].File? ==> fs'[k].File?)
  }

  lemma KindsKeptTransitive(a: FS, b: FS, c: FS)
    requires KindsKept(a, b) && KindsKept(b, c)
    ensures KindsKept(a, c)
  {
  }

  /** On a tree, `MkdirAll` fails exactly when a file lies on the path. */
  lemma {:induction false} MkdirAllFailsIff(fs: FS, p: Path, mode: FileMode)
    requires WellFormed(fs)
    ensures MkdirAll(fs, p, mode).Ok? <==> !FileOnPath(fs, p)
    decreases |p.segs|
  {
    if |p.segs| == 0 {
      assert forall a :: AncestorOrSelf(a, p) ==> |a.segs| == 0;
    } else if p in fs {
      if fs[p].Dir? {
        DirOnTreeHasDirAncestors(fs, p);
      } else {
        assert AncestorOrSelf(p, p);
      }
    } else {
      MkdirAllFailsIff(fs, Parent(p), mode);
      AncestorOfParent(p);
      if !FileOnPath(fs, Parent(p)) {
        forall a | a in fs && AncestorOrSelf(a, p) ensures fs[a].Dir? {
          assert a == p || AncestorOrSelf(a, Parent(p));
        }
      } else {
        var a :| a in fs && AncestorOrSelf(a, Parent(p)) && fs[a].File?;
        assert AncestorOrSelf(a, p);
      }
    }
  }

  /** A successful `MkdirAll` on a tree leaves a tree in which every prefix
      of the path is a directory. */
  lemma {:induction false} MkdirAllKeepsTree(fs: FS, p: Path, mode: FileMode)
    requires WellFormed(fs) && IsClean(p) && MkdirAll(fs, p, mode).Ok?
    ensures WellFormed(MkdirAll(fs, p, mode).value)
    ensures forall a :: AncestorOrSelf(a, p) && |a.segs| > 0 ==>
      a in MkdirAll(fs, p, mode).value && MkdirAll(fs, p, mode).value[a].Dir?
    decreases |p.segs|
  {
    if |p.segs| == 0 {
    } else if p in fs {
      DirOnTreeHasDirAncestors(fs, p);
    } else {
      ParentIsClean(p);
      MkdirAllKeepsTree(fs, Parent(p), mode);
      AncestorOfParent(p);
      var fs1 := MkdirAll(fs, Parent(p), mode).value;
      var r := fs1[p := Dir(mode)];
      assert MkdirAll(fs, p, mode).value == r;
      forall k | k in r && |k.segs| > 1 ensures Parent(k) in r && r[Parent(k)].Dir? {
        if k == p {
          assert AncestorOrSelf(Parent(p), Parent(p));
        }
      }
    }
  }

  lemma ParentIsClean(p: Path)
    requires IsClean(p)
    ensures IsClean(Parent(p))
  {
  }

  /** The ancestors of `p` are `p` itself and the ancestors of its parent. */
  lemma AncestorOfParent(p: Path)
    requires |p.segs| > 0
    ensures forall a :: AncestorOrSelf(a, p) ==> a == p || AncestorOrSelf(a, Parent(p))
  {
    forall a | AncestorOrSelf(a, p) ensures a == p || AncestorOrSelf(a, Parent(p)) {
      if |a.segs| == |p.segs| {
        assert a.segs == p.segs[..|p.segs|];
      }
    }
  }

  /** In a tree, a stored directory has every ancestor stored as a directory. */
  lemma {:induction false} DirOnTreeHasDirAncestors(fs: FS, p: Path)
    requires WellFormed(fs) && p in fs && fs[p].Dir?
    ensures forall a :: AncestorOrSelf(a, p) && |a.segs| > 0 ==> a in fs && fs[a].Dir?
    ensures !FileOnPath(fs, p)
    decreases |p.segs|
  {
    AncestorOfParent(p);
    if |p.segs| > 1 {
      DirOnTreeHasDirAncestors(fs, Parent(p));
    } else {
      forall a | AncestorOrSelf(a, p) && |a.segs| > 0 ensures a == p {
        assert a.segs == p.segs[..1];
      }
    }
  }

  /** Creating or truncating a file keeps the tree shape. */
  lemma CreateTruncateKeepsTree(fs: FS, p: Path, mode: FileMode)
    requires WellFormed(fs) && IsClean(p) && CreateTruncate(fs, p, mode).Ok?
    ensures WellFormed(CreateTruncate(fs, p, mode).value)
  {
  }

  /** Writing a file's contents keeps the tree shape. */
  lemma WriteDataKeepsTree(fs: FS, p: Path, data: Bytes)
    requires WellFormed(fs) && p in fs && fs[p].File?
    ensures WellFormed(WriteData(fs, p, data))
  {
  }
}

=== FILE: go_protoc.dfy ===
/** `runProtoc`, up to the point where it would start protoc: the release
    tag, the default plugin flags it adds, the proto files it adds when the
    user named none, and the one `BinPath` call. The environment lookup, the
    glob and the cache are parameters. */
module GoProtoc {
  import opened Wrappers
  import opened ParseArgs

  const DefaultProtocTag := "latest"
  const TagVariable := "PROTOC_RELEASE_TAG"
  const DefaultProtoFilesPattern := "**/*.proto"

  /** A flag added unless the user set it, written `--name=value`. */
  datatype Default = Default(name: string, value: string) {
    function Flag(): string {
      "--" + name + "=" + value
    }
  }

  /** The four defaults, in the order they are added. */
  const Defaults: seq<Default> := [
    Default("go_out", "."),
    Default("go_opt", "paths=source_relative"),
    Default("go-grpc_out", "."),
    Default("go-grpc_opt", "paths=source_relative")
  ]

  /** The command `runProtoc` would start. */
  datatype Command = Command(binPath: string, args: seq<string>)

  /** The tags `BinPath` was asked for, and the outcome. */
  datatype Run = Run(binPathCalls: seq<string>, result: Result<Command>)

  /** The value of the variable whenever it is set, even to "", and
      "latest" otherwise. */
  function ReleaseTag(env: Option<string>): (tag: string)
    ensures env.Some? ==> tag == env.value
    ensures env.None? ==> tag == DefaultProtocTag
  {
    match env
    case Some(v) => v
    case None => DefaultProtocTag
  }

  /** One of the four `if !slices.Contains(...)` steps. */
  function AddUnlessSet(args: seq<string>, flags: seq<string>, d: Default): (r: seq<string>)
    ensures args <= r && |r| <= |args| + 1
    ensures |r| == |args| + 1 <==> d.name !in flags
  {
    if d.name in flags then args else args + [d.Flag()]
  }

  /** The default-flag injection, step by step as the source writes it. */
  function InjectDefaults(args: seq<string>, flags: seq<string>): (r: seq<string>)
    ensures args <= r && |r| <= |args| + |Defaults|
  {
    var a1 := AddUnlessSet(args, flags, Defaults[0]);
    var a2 := AddUnlessSet(a1, flags, Defaults[1]);
    var a3 := AddUnlessSet(a2, flags, Defaults[2]);
    AddUnlessSet(a3, flags, Defaults[3])
  }

  /** Reference definition: the flags of the defaults whose names are not
      among `flags`, in table order. */
  function MissingFlags(flags: seq<string>, ds: seq<Default>): (r: seq<string>)
    ensures |r| <= |ds|
  {
    if ds == [] then []
    else if ds[0].name in flags then MissingFlags(flags, ds[1..])
    else [ds[0].Flag()] + MissingFlags(flags, ds[1..])
  }

  /** The names that go with `MissingFlags`. */
  function MissingNames(flags: seq<string>, ds: seq<Default>): (r: seq<string>)
    ensures forall x :: x in r ==> x !in flags
  {
    if ds == [] then []
    else if ds[0].name in flags then MissingNames(flags, ds[1..])
    else [ds[0].name] + MissingNames(flags, ds[1..])
  }

  /** `runProtoc` up to `exec.Command`. */
  function RunProtoc(lookupEnv: string -> Option<string>, args: seq<string>,
                     glob: string -> Result<seq<string>>,
                     binPath: string -> Result<string>): (r: Run)
    ensures r.binPathCalls == [] <==>
      !ScanFrom(args, 0).hasNonFlagArgs && glob(DefaultProtoFilesPattern).Err?
    ensures r.binPathCalls == [] ==>
      r.result == Err("failed to glob proto files: " + glob(DefaultProtoFilesPattern).msg)
    ensures r.binPathCalls != [] ==> r.binPathCalls == [ReleaseTag(lookupEnv(TagVariable))]
    ensures (r.binPathCalls != [] && binPath(ReleaseTag(lookupEnv(TagVariable))).Err?) ==>
      r.result == Err("failed to get protoc binary " + ReleaseTag(lookupEnv(TagVariable)) + ": "
                      + binPath(ReleaseTag(lookupEnv(TagVariable))).msg)
    ensures r.result.Ok? ==>
      && r.binPathCalls != []
      && binPath(ReleaseTag(lookupEnv(TagVariable))) == Ok(r.result.value.binPath)
      && args <= r.result.value.args
  {
    var tag := ReleaseTag(lookupEnv(TagVariable));
    var parsed := ScanFrom(args, 0);
    var withDefaults := InjectDefaults(args, parsed.flags);
    var matches := if parsed.hasNonFlagArgs then Ok([]) else glob(DefaultProtoFilesPattern);
    if matches.Err? then
      Run([], Err("failed to glob proto files: " + matches.msg))
    else
      var all := withDefaults + matches.value;
      assert args <= withDefaults <= all;
      match binPath(tag)
      case Err(m) => Run([tag], Err("failed to get protoc binary " + tag + ": " + m))
      case Ok(path) => Run([tag], Ok(Command(path, all)))
  }

  /** The defaults are the flags the source writes out. */
  lemma GoOutDefault()
    ensures Defaults[0].Flag() == "--go_out=."
  {
  }

  lemma GoOptDefault()
    ensures Defaults[1].Flag() == "--go_opt=paths=source_relative"
  {
    assert Defaults[1].Flag() == "--go_opt" + "=" + "paths=source_relative";
  }

  lemma GrpcOutDefault()
    ensures Defaults[2].Flag() == "--go-grpc_out=."
  {
  }

  lemma GrpcOptDefault()
    ensures Defaults[3].Flag() == "--go-grpc_opt=paths=source_relative"
  {
    assert Defaults[3].Flag() == "--go-grpc_opt" + "=" + "paths=source_relative";
  }

  /** One step of the injection, against the reference definition: adding
      the first default unless it is set, then the missing rest, is adding
      the missing ones of the whole table. */
  lemma AddThenMissing(args: seq<string>, flags: seq<string>, ds: seq<Default>)
    requires ds != []
    ensures AddUnlessSet(args, flags, ds[0]) + MissingFlags(flags, ds[1..]) == args + MissingFlags(flags, ds)
  {
    if ds[0].name !in flags {
      assert args + [ds[0].Flag()] + MissingFlags(flags, ds[1..]) == args + ([ds[0].Flag()] + MissingFlags(flags, ds[1..]));
    }
  }

  /** The step-by-step injection appends exactly the missing defaults, in
      table order. */
  lemma InjectDefaultsByTable(args: seq<string>, flags: seq<string>)
    ensures InjectDefaults(args, flags) == args + MissingFlags(flags, Defaults)
  {
    var d := Defaults;
    var a1 := AddUnlessSet(args, flags, d[0]);
    var a2 := AddUnlessSet(a1, flags, d[1]);
    var a3 := AddUnlessSet(a2, flags, d[2]);
    var a4 := AddUnlessSet(a3, flags, d[3]);
    assert d[0..][0] == d[0] && d[0..][1..] == d[1..] && d[0..] == d;
    assert d[1..][0] == d[1] && d[1..][1..] == d[2..];
    assert d[2..][0] == d[2] && d[2..][1..] == d[3..];
    assert d[3..][0] == d[3] && d[3..][1..] == [];
    AddThenMissing(args, flags, d[0..]);
    AddThenMissing(a1, flags, d[1..]);
    AddThenMissing(a2, flags, d[2..]);
    AddThenMissing(a3, flags, d[3..]);
    assert a4 + MissingFlags(flags, []) == a4;
  }

  /** Membership in `MissingFlags`: a default's flag is there exactly when
      its name was not set, provided the defaults' flags are distinct. */
  lemma {:induction false} MissingFlagsMembership(flags: seq<string>, ds: seq<Default>, k: nat)
    requires k < |ds|
    requires forall i, j :: 0 <= i < j < |ds| ==> ds[i].Flag() != ds[j].Flag()
    ensures ds[k].Flag() in MissingFlags(flags, ds) <==> ds[k].name !in flags
  {
    if k == 0 {
      forall j | 0 <= j < |ds[1..]|
        ensures ds[1..][j].Flag() != ds[0].Flag()
      {
        assert ds[1..][j] == ds[j + 1];
      }
      NotInTable(flags, ds[1..], ds[0].Flag());
    } else {
      assert ds[1..][k - 1] == ds[k];
      assert ds[k].Flag() != ds[0].Flag();
      MissingFlagsMembership(flags, ds[1..], k - 1);
    }
  }

  /** A flag no default of the table has is never among the missing ones. */
  lemma {:induction false} NotInTable(flags: seq<string>, ds: seq<Default>, x: string)
    requires forall j :: 0 <= j < |ds| ==> ds[j].Flag() != x
    ensures x !in MissingFlags(flags, ds)
  {
    if ds != [] {
      forall j | 0 <= j < |ds[1..]|
        ensures ds[1..][j].Flag() != x
      {
        assert ds[1..][j] == ds[j + 1];
      }
      NotInTable(flags, ds[1..], x);
    }
  }

  /** The four default flags are pairwise different. */
  lemma DefaultsDistinct()
    ensures forall i, j :: 0 <= i < j < |Defaults| ==> Defaults[i].Flag() != Defaults[j].Flag()
  {
    GoOutDefault();
    GoOptDefault();
    GrpcOutDefault();
    GrpcOptDefault();
    assert "--go_out=."[6] != "--go_opt=paths=source_relative"[6];
    assert |"--go_out=."| != |"--go-grpc_out=."|;
    assert |"--go_out=."| != |"--go-grpc_opt=paths=source_relative"|;
    assert |"--go_opt=paths=source_relative"| != |"--go-grpc_out=."|;
    assert |"--go_opt=paths=source_relative"| != |"--go-grpc_opt=paths=source_relative"|;
    assert "--go-grpc_out=."[11] != "--go-grpc_opt=paths=source_relative"[11];
  }

  /** Each default is appended exactly when its name is not among the flags
      the scanner found. */
  lemma DefaultAppendedIff(args: seq<string>, flags: seq<string>, k: nat)
    requires k < |Defaults|
    ensures Defaults[k].Flag() in InjectDefaults(args, flags)[|args|..] <==> Defaults[k].name !in flags
  {
    InjectDefaultsByTable(args, flags);
    assert InjectDefaults(args, flags)[|args|..] == MissingFlags(flags, Defaults);
    DefaultsDistinct();
    MissingFlagsMembership(flags, Defaults, k);
  }

  /** The defaults' names are names the scanner can report. */
  lemma DefaultNamesValid()
    ensures forall k :: 0 <= k < |Defaults| ==> ValidFlagName(Defaults[k].name)
  {
    assert ValidFlagName("go_out") && ValidFlagName("go_opt");
    assert ValidFlagName("go-grpc_out") && ValidFlagName("go-grpc_opt");
  }

  /** Scanning the appended defaults reads back their names and finds no
      non-flag argument. */
  lemma {:induction false} ScanMissing(flags: seq<string>, ds: seq<Default>)
    requires forall k :: 0 <= k < |ds| ==> ValidFlagName(ds[k].name)
    ensures ScanFrom(MissingFlags(flags, ds), 0) == Parsed(MissingNames(flags, ds), false)
    ensures MissingFlags(flags, ds) != [] ==> DashFirst(MissingFlags(flags, ds)[0])
  {
    if ds != [] {
      var rest := MissingFlags(flags, ds[1..]);
      assert forall k :: 0 <= k < |ds[1..]| ==> ds[1..][k] == ds[k + 1];
      ScanMissing(flags, ds[1..]);
      if ds[0].name !in flags {
        var f := ds[0].Flag();
        ExtractFlagNameRoundTrip(ds[0].name, ds[0].value);
        assert f[0] == '-' && f[1] == '-';
        FlagThenFlags(f, rest);
      }
    }
  }

  /** With no "--" among the user's arguments, adding the defaults a second
      time adds nothing: every default's name is now set. */
  lemma DefaultsIdempotent(args: seq<string>)
    requires forall k :: 0 <= k < |args| ==> args[k] != "--"
    ensures
      var once := InjectDefaults(args, ScanFrom(args, 0).flags);
      InjectDefaults(once, ScanFrom(once, 0).flags) == once
  {
    var flags := ScanFrom(args, 0).flags;
    var once := InjectDefaults(args, flags);
    InjectDefaultsByTable(args, flags);
    var ext := MissingFlags(flags, Defaults);
    DefaultNamesValid();
    ScanMissing(flags, Defaults);
    ScanAppend(args, ext, 0);
    var flags2 := ScanFrom(once, 0).flags;
    assert flags2 == flags + MissingNames(flags, Defaults);
    forall k | 0 <= k < |Defaults|
      ensures Defaults[k].name in flags2
    {
      MissingNamesCover(flags, Defaults, k);
    }
    InjectDefaultsByTable(once, flags2);
    NothingMissing(flags2, Defaults);
  }

  /** A default's name is either set already or reported by `MissingNames`. */
  lemma {:induction false} MissingNamesCover(flags: seq<string>, ds: seq<Default>, k: nat)
    requires k < |ds|
    ensures ds[k].name in flags || ds[k].name in MissingNames(flags, ds)
  {
    if k > 0 {
      assert ds[1..][k - 1] == ds[k];
      MissingNamesCover(flags, ds[1..], k - 1);
    }
  }

  /** When every name is set, nothing is missing. */
  lemma {:induction false} NothingMissing(flags: seq<string>, ds: seq<Default>)
    requires forall k :: 0 <= k < |ds| ==> ds[k].name in flags
    ensures MissingFlags(flags, ds) == []
  {
    if ds != [] {
      assert ds[0].name in flags;
      assert forall k :: 0 <= k < |ds[1..]| ==> ds[1..][k] == ds[k + 1];
      NothingMissing(flags, ds[1..]);
    }
  }

  /** After a "--" the defaults are out of the scanner's sight, so a second
      injection adds them again. */
  lemma DoubleDashRepeatsDefaults()
    ensures
      var once := InjectDefaults(["--"], ScanFrom(["--"], 0).flags);
      InjectDefaults(once, ScanFrom(once, 0).flags) != once
  {
    var once := InjectDefaults(["--"], []);
    assert ScanFrom(["--"], 0).flags == [];
    assert |once| == 5;
    assert once[0] == "--";
    assert ScanFrom(once, 0).flags == [];
  }

  /** The proto files are looked for only when the user passed no non-flag
      argument: otherwise the glob's answer makes no difference. */
  lemma GlobOnlyWithoutOperands(lookupEnv: string -> Option<string>, args: seq<string>,
                                glob1: string -> Result<seq<string>>,
                                glob2: string -> Result<seq<string>>,
                                binPath: string -> Result<string>)
    requires ScanFrom(args, 0).hasNonFlagArgs
    ensures RunProtoc(lookupEnv, args, glob1, binPath) == RunProtoc(lookupEnv, args, glob2, binPath)
    ensures RunProtoc(lookupEnv, args, glob1, binPath).binPathCalls == [ReleaseTag(lookupEnv(TagVariable))]
  {
  }

  /** On success the command's arguments are the user's, then the missing
      defaults in table order, then the matches when the glob was used. */
  lemma FinalArguments(lookupEnv: string -> Option<string>, args: seq<string>,
                       glob: string -> Result<seq<string>>,
                       binPath: string -> Result<string>)
    requires RunProtoc(lookupEnv, args, glob, binPath).result.Ok?
    ensures
      var parsed := ScanFrom(args, 0);
      RunProtoc(lookupEnv, args, glob, binPath).result.value.args
        == args + MissingFlags(parsed.flags, Defaults)
           + (if parsed.hasNonFlagArgs then [] else glob(DefaultProtoFilesPattern).value)
  {
    InjectDefaultsByTable(args, ScanFrom(args, 0).flags);
  }

  /** The unset variable, an empty value and a set value. */
  lemma TagExamples()
    ensures ReleaseTag(None) == "latest"
    ensures ReleaseTag(Some("")) == ""
    ensures ReleaseTag(Some("v25.3")) == "v25.3"
  {
  }
}

=== FILE: parse_args.dfy ===
/** `ParseArgs` and `extractFlagName`: a scanner over protoc's command line
    that never fails. It collects the names of the flags that were set and
    notes whether any argument was not a flag. */
module ParseArgs {
  import opened Wrappers

  datatype Parsed = Parsed(flags: seq<string>, hasNonFlagArgs: bool)

  /** The names `extractFlagName` can return besides "". */
  predicate ValidFlagName(name: string) {
    name != "" && '=' !in name && name[0] != '-'
  }

  /** The argument is treated as a flag: at least two characters, the first
      one a dash. */
  predicate IsFlagLike(arg: string) {
    |arg| >= 2 && arg[0] == '-'
  }

  /** `strings.HasPrefix(s, "-")`, written on the first character. */
  predicate DashFirst(s: string) {
    |s| > 0 && s[0] == '-'
  }

  /** `strings.HasPrefix(s, "--")`, written on the first two characters. */
  predicate TwoDashesFirst(s: string) {
    |s| >= 2 && s[0] == '-' && s[1] == '-'
  }

  lemma DashPrefixes(s: string)
    ensures DashFirst(s) <==> HasPrefix(s, "-")
    ensures TwoDashesFirst(s) <==> HasPrefix(s, "--")
  {
    if |s| >= 1 {
      assert s[..1] == [s[0]];
    }
    if |s| >= 2 {
      assert s[..2] == [s[0], s[1]];
    }
  }

  /** `strings.Index(s, "=")`, or `|s|` when there is none. */
  function IndexOfEquals(s: string): (k: nat)
    ensures k <= |s|
  {
    if |s| == 0 then 0
    else if s[0] == '=' then 0
    else IndexOfEquals(s[1..]) + 1
  }

  /** `IndexOfEquals` stops at the first '=', and only there. */
  lemma {:induction false} IndexOfEqualsFirst(s: string)
    ensures forall j :: 0 <= j < IndexOfEquals(s) ==> s[j] != '='
    ensures IndexOfEquals(s) < |s| ==> s[IndexOfEquals(s)] == '='
  {
    if |s| > 0 && s[0] != '=' {
      IndexOfEqualsFirst(s[1..]);
      assert forall j :: 1 <= j <= |s[1..]| ==> s[j] == s[1..][j - 1];
    }
  }

  /** The argument without its leading "--", or else without its leading "-". */
  function StripDashes(arg: string): (s: string)
    ensures arg == s || arg == "-" + s || arg == "--" + s
  {
    if TwoDashesFirst(arg) then
      assert arg == "--" + arg[2..];
      arg[2..]
    else if DashFirst(arg) then
      assert arg == "-" + arg[1..];
      arg[1..]
    else arg
  }

  /** `extractFlagName`: drop the dashes, cut at the first '=', and refuse
      what is left if it is empty or still starts with a dash. */
  function ExtractFlagName(arg: string): (name: string)
    ensures name == "" || ValidFlagName(name)
  {
    var stripped := StripDashes(arg);
    IndexOfEqualsFirst(stripped);
    var cut := stripped[..IndexOfEquals(stripped)];
    if cut == "" || DashFirst(cut) then "" else cut
  }

  /** `IndexOfEquals` finds the first '='. */
  lemma {:induction false} IndexOfEqualsAt(s: string, k: nat)
    requires k <= |s| && (forall j :: 0 <= j < k ==> s[j] != '=') && (k == |s| || s[k] == '=')
    ensures IndexOfEquals(s) == k
    decreases k
  {
    if k > 0 {
      IndexOfEqualsAt(s[1..], k - 1);
    }
  }

  /** A name is returned exactly when it is valid and is what follows the
      dashes, up to the first '=' or the end. */
  lemma FlagNameCharacterisation(arg: string, name: string)
    ensures (ExtractFlagName(arg) == name && name != "") <==>
      && ValidFlagName(name)
      && HasPrefix(StripDashes(arg), name)
      && (|StripDashes(arg)| == |name| || StripDashes(arg)[|name|] == '=')
  {
    var s := StripDashes(arg);
    IndexOfEqualsFirst(s);
    if ValidFlagName(name) && HasPrefix(s, name) && (|s| == |name| || s[|name|] == '=') {
      forall j | 0 <= j < |name|
        ensures s[j] != '='
      {
        assert s[j] == name[j];
      }
      IndexOfEqualsAt(s, |name|);
    }
  }

  /** The dashes `StripDashes` removes are exactly the ones written. */
  lemma StripWrittenDashes(t: string)
    requires t != "" && t[0] != '-'
    ensures StripDashes("--" + t) == t
    ensures StripDashes("-" + t) == t
  {
    assert ("--" + t)[2..] == t;
    assert ("-" + t)[1] == t[0];
    assert ("-" + t)[1..] == t;
  }

  /** After the dashes, the name alone or the name and a value. */
  lemma ReadsBackAfterDashes(arg: string, name: string, value: string)
    requires ValidFlagName(name)
    requires StripDashes(arg) == name || StripDashes(arg) == name + "=" + value
    ensures ExtractFlagName(arg) == name
  {
    var v := name + "=" + value;
    assert v[..|name|] == name && v[|name|] == '=';
    FlagNameCharacterisation(arg, name);
  }

  /** A valid name written as a flag, with one or two dashes and with or
      without a value, reads back as that name. */
  lemma ExtractFlagNameRoundTrip(name: string, value: string)
    requires ValidFlagName(name)
    ensures ExtractFlagName("--" + name) == name
    ensures ExtractFlagName("--" + name + "=" + value) == name
    ensures ExtractFlagName("-" + name) == name
    ensures ExtractFlagName("-" + name + "=" + value) == name
  {
    var v := name + "=" + value;
    assert "--" + name + "=" + value == "--" + v;
    assert "-" + name + "=" + value == "-" + v;
    StripWrittenDashes(name);
    StripWrittenDashes(v);
    ReadsBackAfterDashes("--" + name, name, value);
    ReadsBackAfterDashes("--" + v, name, value);
    ReadsBackAfterDashes("-" + name, name, value);
    ReadsBackAfterDashes("-" + v, name, value);
  }

  /** What the loop of `ParseArgs` sees in one argument: an operand
      (remembering whether it is the lone "-", the only operand that starts
      with a dash), the "--" terminator, or a flag with the name
      `extractFlagName` gives it ("" when the name is refused). */
  datatype Token = Operand(dashed: bool) | EndOfFlags | Flag(name: string)
  {
    /** The argument starts with '-', so it is never taken as a value. */
    predicate Dashed() {
      !Operand? || dashed
    }
  }

  /** The classification the loop makes of one argument. */
  function Tokenize(arg: string): (t: Token)
    ensures t.Dashed() <==> DashFirst(arg)
    ensures t.Flag? ==> t.name == "" || ValidFlagName(t.name)
  {
    if !IsFlagLike(arg) then Operand(DashFirst(arg))
    else if arg == "--" then EndOfFlags
    else Flag(ExtractFlagName(arg))
  }

  /** Every argument classified on its own. */
  function Tokens(args: seq<string>): (ts: seq<Token>)
    ensures |ts| == |args|
  {
    if args == [] then [] else [Tokenize(args[0])] + Tokens(args[1..])
  }

  lemma {:induction false} TokensAt(args: seq<string>, i: nat)
    requires i < |args|
    ensures Tokens(args)[i] == Tokenize(args[i])
  {
    if i > 0 {
      TokensAt(args[1..], i - 1);
    }
  }

  lemma {:induction false} TokensAppend(a: seq<string>, b: seq<string>)
    ensures Tokens(a + b) == Tokens(a) + Tokens(b)
  {
    if a != [] {
      assert (a + b)[0] == a[0];
      assert (a + b)[1..] == a[1..] + b;
      TokensAppend(a[1..], b);
      var t := [Tokenize(a[0])];
      assert Tokens(a + b) == t + (Tokens(a[1..]) + Tokens(b));
      assert t + (Tokens(a[1..]) + Tokens(b)) == (t + Tokens(a[1..])) + Tokens(b);
    } else {
      assert a + b == b;
    }
  }

  /** Where the scan resumes after a named flag at `i`: the next argument is
      taken as its value unless it starts with a dash. */
  function NextAfterFlag(ts: seq<Token>, i: nat): (next: nat)
    requires i < |ts|
    ensures i < next <= |ts|
    ensures next == i + 2 <==> i + 1 < |ts| && !ts[i + 1].Dashed()
  {
    if i + 1 < |ts| && !ts[i + 1].Dashed() then i + 2 else i + 1
  }

  /** The loop of `ParseArgs` from position `i`, as a recursive definition
      over the classified arguments. */
  function Scan(ts: seq<Token>, i: nat): (p: Parsed)
    requires i <= |ts|
    ensures |p.flags| <= |ts| - i
    decreases |ts| - i
  {
    if i == |ts| then Parsed([], false)
    else match ts[i]
      case Operand(_) => Parsed(Scan(ts, i + 1).flags, true)
      case EndOfFlags => Parsed([], i + 1 < |ts|)
      case Flag(name) =>
        if name == "" then Scan(ts, i + 1)
        else
          var rest := Scan(ts, NextAfterFlag(ts, i));
          Parsed([name] + rest.flags, rest.hasNonFlagArgs)
  }

  /** What `ParseArgs(args)` returns when the loop starts at `i`. */
  function ScanFrom(args: seq<string>, i: nat): (p: Parsed)
    requires i <= |args|
    ensures |p.flags| <= |args| - i
  {
    Scan(Tokens(args), i)
  }

  /** One flag-like argument other than "--": its name, and where the loop
      goes on. A named flag also consumes the next argument when that one
      does not start with a dash. */
  method ReadFlag(args: seq<string>, i: nat) returns (flagName: string, next: nat)
    requires i < |args| && IsFlagLike(args[i]) && args[i] != "--"
    ensures Tokens(args)[i] == Flag(flagName)
    ensures flagName != "" ==> next == NextAfterFlag(Tokens(args), i)
    ensures flagName == "" ==> next == i + 1
  {
    TokensAt(args, i);
    if i + 1 < |args| {
      TokensAt(args, i + 1);
    }
    flagName := ExtractFlagName(args[i]);
    next := i + 1;
    if flagName != "" && i + 1 < |args| {
      var nextArg := args[i + 1];
      if !(|nextArg| > 0 && nextArg[0] == '-') {
        next := i + 2;
      }
    }
  }

  /** `ParseArgs(args)`, the loop of the source. */
  method ParseArgs(args: seq<string>) returns (flags: seq<string>, hasNonFlagArgs: bool)
    ensures Parsed(flags, hasNonFlagArgs) == ScanFrom(args, 0)
  {
    ghost var ts := Tokens(args);
    flags := [];
    hasNonFlagArgs := false;
    var i := 0;
    while i < |args|
      invariant i <= |args|
      invariant Scan(ts, 0) == Parsed(flags + Scan(ts, i).flags, hasNonFlagArgs || Scan(ts, i).hasNonFlagArgs)
      decreases |args| - i
    {
      var arg := args[i];
      TokensAt(args, i);
      if !(|arg| >= 2 && arg[0] == '-') {
        hasNonFlagArgs := true;
        i := i + 1;
      } else if arg == "--" {
        assert flags + [] == flags;
        if i + 1 < |args| {
          hasNonFlagArgs := true;
        }
        return;
      } else {
        var flagName, next := ReadFlag(args, i);
        if flagName != "" {
          ghost var rest := Scan(ts, next).flags;
          assert flags + ([flagName] + rest) == flags + [flagName] + rest;
          flags := flags + [flagName];
        }
        i := next;
      }
    }
  }

  /** The positions are strictly increasing and lie in `[lo, hi)`. */
  predicate Ascending(ps: seq<nat>, lo: nat, hi: nat) {
    && (forall k :: 0 <= k < |ps| ==> lo <= ps[k] < hi)
    && (forall k, l :: 0 <= k < l < |ps| ==> ps[k] < ps[l])
  }

  /** The `k`-th name is the name of the flag at the `k`-th position. */
  predicate ReadFrom(ts: seq<Token>, names: seq<string>, ps: seq<nat>)
    requires forall k :: 0 <= k < |ps| ==> ps[k] < |ts|
  {
    && |names| == |ps|
    && forall k :: 0 <= k < |ps| ==> ts[ps[k]] == Flag(names[k]) && names[k] != ""
  }

  /** Where the collected flags come from: one position per name, in
      order, each holding a flag argument with that name. */
  ghost function FlagPositions(ts: seq<Token>, i: nat): (ps: seq<nat>)
    requires i <= |ts|
    ensures Ascending(ps, i, |ts|)
    ensures ReadFrom(ts, Scan(ts, i).flags, ps)
    decreases |ts| - i
  {
    if i == |ts| then []
    else match ts[i]
      case Operand(_) => FlagPositions(ts, i + 1)
      case EndOfFlags => []
      case Flag(name) =>
        if name == "" then FlagPositions(ts, i + 1)
        else
          var next := NextAfterFlag(ts, i);
          ConsPosition(ts, name, Scan(ts, next).flags, i, FlagPositions(ts, next), next);
          [i] + FlagPositions(ts, next)
  }

  lemma ConsPosition(ts: seq<Token>, name: string, names: seq<string>, i: nat, ps: seq<nat>, next: nat)
    requires i < next <= |ts| && ts[i] == Flag(name) && name != ""
    requires Ascending(ps, next, |ts|) && ReadFrom(ts, names, ps)
    ensures Ascending([i] + ps, i, |ts|) && ReadFrom(ts, [name] + names, [i] + ps)
  {
    var qs := [i] + ps;
    assert forall j :: 0 < j < |qs| ==> qs[j] == ps[j - 1];
  }

  /** The collected names are, in argument order, the names `extractFlagName`
      reads from flag-like arguments; each one is valid. */
  lemma NamesInArgumentOrder(args: seq<string>, i: nat)
    requires i <= |args|
    ensures var ps := FlagPositions(Tokens(args), i); var names := ScanFrom(args, i).flags;
      && Ascending(ps, i, |args|) && |ps| == |names|
      && forall k :: 0 <= k < |ps| ==>
           IsFlagLike(args[ps[k]]) && ExtractFlagName(args[ps[k]]) == names[k] && ValidFlagName(names[k])
  {
    var ts := Tokens(args);
    var ps := FlagPositions(ts, i);
    var names := Scan(ts, i).flags;
    forall k | 0 <= k < |ps|
      ensures IsFlagLike(args[ps[k]]) && ExtractFlagName(args[ps[k]]) == names[k] && ValidFlagName(names[k])
    {
      TokensAt(args, ps[k]);
      assert ts[ps[k]] == Flag(names[k]) && names[k] != "";
    }
  }

  /** Scanning the tail of a list does not depend on what precedes it. */
  lemma {:induction false} ScanShift(a: seq<Token>, b: seq<Token>, j: nat)
    requires j <= |b|
    ensures Scan(a + b, |a| + j) == Scan(b, j)
    decreases |b| - j
  {
    if j < |b| {
      var ab := a + b;
      var k := |a| + j;
      assert ab[k] == b[j];
      match b[j]
      case Operand(_) =>
        ScanShift(a, b, j + 1);
      case EndOfFlags =>
      case Flag(name) =>
        if name == "" {
          ScanShift(a, b, j + 1);
        } else {
          assert NextAfterFlag(ab, k) == |a| + NextAfterFlag(b, j) by {
            if j + 1 < |b| {
              assert ab[k + 1] == b[j + 1];
            }
          }
          ScanShift(a, b, NextAfterFlag(b, j));
        }
    }
  }

  /** Appending tokens whose first one cannot be taken as a value, to a list
      without "--", adds their flags after the ones already there. */
  lemma {:induction false} ScanJoin(a: seq<Token>, b: seq<Token>, i: nat)
    requires i <= |a|
    requires forall k :: i <= k < |a| ==> a[k] != EndOfFlags
    requires b != [] ==> b[0].Dashed()
    ensures Scan(a + b, i).flags == Scan(a, i).flags + Scan(b, 0).flags
    ensures Scan(a + b, i).hasNonFlagArgs == (Scan(a, i).hasNonFlagArgs || Scan(b, 0).hasNonFlagArgs)
    decreases |a| - i
  {
    var ab := a + b;
    if i == |a| {
      ScanShift(a, b, 0);
    } else {
      assert ab[i] == a[i];
      match a[i]
      case Operand(_) =>
        ScanJoin(a, b, i + 1);
      case Flag(name) =>
        if name == "" {
          ScanJoin(a, b, i + 1);
        } else {
          var next := NextAfterFlag(a, i);
          assert NextAfterFlag(ab, i) == next by {
            if i + 1 < |a| {
              assert ab[i + 1] == a[i + 1];
            } else if b != [] {
              assert ab[i + 1] == b[0];
            }
          }
          ScanJoin(a, b, next);
          assert [name] + Scan(a, next).flags + Scan(b, 0).flags
              == [name] + (Scan(a, next).flags + Scan(b, 0).flags);
        }
    }
  }

  /** The same for argument lists: arguments whose first one starts with a
      dash, appended to a list without "--", add their flags at the end. */
  lemma ScanAppend(args: seq<string>, ext: seq<string>, i: nat)
    requires i <= |args|
    requires forall k :: i <= k < |args| ==> args[k] != "--"
    requires ext != [] ==> DashFirst(ext[0])
    ensures ScanFrom(args + ext, i).flags == ScanFrom(args, i).flags + ScanFrom(ext, 0).flags
    ensures ScanFrom(args + ext, i).hasNonFlagArgs == (ScanFrom(args, i).hasNonFlagArgs || ScanFrom(ext, 0).hasNonFlagArgs)
  {
    var ts := Tokens(args);
    TokensAppend(args, ext);
    forall k | i <= k < |args|
      ensures ts[k] != EndOfFlags
    {
      TokensAt(args, k);
    }
    if ext != [] {
      TokensAt(ext, 0);
    }
    ScanJoin(ts, Tokens(ext), i);
  }

  /** "--" ends the scan: nothing after it is a flag, and it counts as a
      non-flag argument only when something follows it. */
  lemma DoubleDashEndsScan(pre: seq<string>, tail: seq<string>)
    requires forall k :: 0 <= k < |pre| ==> pre[k] != "--"
    ensures ScanFrom(pre + ["--"] + tail, 0).flags == ScanFrom(pre, 0).flags
    ensures ScanFrom(pre + ["--"] + tail, 0).hasNonFlagArgs == (ScanFrom(pre, 0).hasNonFlagArgs || tail != [])
  {
    var rest := ["--"] + tail;
    assert pre + ["--"] + tail == pre + rest;
    assert rest[0] == "--";
    ScanAppend(pre, rest, 0);
    TokensAt(rest, 0);
    assert Scan(Tokens(rest), 0) == Parsed([], tail != []);
    assert ScanFrom(pre, 0).flags + [] == ScanFrom(pre, 0).flags;
  }

  // ---------------------------------------------------------------------------
  // One step of the loop, at any position of the argument list.

  /** A named flag takes the next argument as its value whenever that one
      does not start with '-', whatever spelling the flag had ("-n", "--n",
      "--n=v"). */
  lemma NamedFlagConsumesValue(args: seq<string>, i: nat)
    requires i + 1 < |args| && IsFlagLike(args[i]) && args[i] != "--" && ExtractFlagName(args[i]) != ""
    requires !DashFirst(args[i + 1])
    ensures ScanFrom(args, i) ==
      Parsed([ExtractFlagName(args[i])] + ScanFrom(args, i + 2).flags, ScanFrom(args, i + 2).hasNonFlagArgs)
  {
    TokensAt(args, i);
    TokensAt(args, i + 1);
  }

  /** A named flag followed by a dashed argument, or by nothing, takes no
      value. */
  lemma NamedFlagBeforeDash(args: seq<string>, i: nat)
    requires i < |args| && IsFlagLike(args[i]) && args[i] != "--" && ExtractFlagName(args[i]) != ""
    requires i + 1 < |args| ==> DashFirst(args[i + 1])
    ensures ScanFrom(args, i) ==
      Parsed([ExtractFlagName(args[i])] + ScanFrom(args, i + 1).flags, ScanFrom(args, i + 1).hasNonFlagArgs)
  {
    TokensAt(args, i);
    if i + 1 < |args| {
      TokensAt(args, i + 1);
    }
  }

  /** A flag-like argument without a name ("-=v", "--=") is passed over on
      its own: the argument after it is not taken as a value. */
  lemma NamelessFlagSkipped(args: seq<string>, i: nat)
    requires i < |args| && IsFlagLike(args[i]) && args[i] != "--" && ExtractFlagName(args[i]) == ""
    ensures ScanFrom(args, i) == ScanFrom(args, i + 1)
  {
    TokensAt(args, i);
  }

  /** Every argument that is not flag-like, a lone "-" or "" included, marks
      a non-flag argument and contributes no name. */
  lemma OperandMarks(args: seq<string>, i: nat)
    requires i < |args| && !IsFlagLike(args[i])
    ensures ScanFrom(args, i) == Parsed(ScanFrom(args, i + 1).flags, true)
  {
    TokensAt(args, i);
  }

  /** "--" at any position ends the scan; it marks a non-flag argument
      exactly when something follows it. */
  lemma DoubleDashAt(args: seq<string>, i: nat)
    requires i < |args| && args[i] == "--"
    ensures ScanFrom(args, i) == Parsed([], i + 1 < |args|)
  {
    TokensAt(args, i);
  }

  /** A named flag followed by a value that does not start with '-', then
      by arguments that cannot be taken as a value: the value is skipped. */
  lemma FlagThenValue(n: string, v: string, x: string, rest: seq<string>)
    requires ValidFlagName(n) && !DashFirst(x)
    requires rest != [] ==> DashFirst(rest[0])
    ensures ScanFrom(["--" + n + "=" + v, x] + rest, 0) == Parsed([n] + ScanFrom(rest, 0).flags, ScanFrom(rest, 0).hasNonFlagArgs)
  {
    var f := "--" + n + "=" + v;
    var args := [f, x] + rest;
    ExtractFlagNameRoundTrip(n, v);
    assert args[0] == f && args[1] == x && f[0] == '-' && f[1] == '-';
    TokensAt(args, 0);
    TokensAt(args, 1);
    TokensAppend([f, x], rest);
    ScanShift(Tokens([f, x]), Tokens(rest), 0);
  }

  /** A named flag followed by arguments that cannot be taken as its value. */
  lemma FlagThenFlags(f: string, rest: seq<string>)
    requires IsFlagLike(f) && f != "--" && ExtractFlagName(f) != ""
    requires rest != [] ==> DashFirst(rest[0])
    ensures ScanFrom([f] + rest, 0).flags == [ExtractFlagName(f)] + ScanFrom(rest, 0).flags
    ensures ScanFrom([f] + rest, 0).hasNonFlagArgs == ScanFrom(rest, 0).hasNonFlagArgs
  {
    var all := [f] + rest;
    assert all[0] == f;
    TokensAt(all, 0);
    if rest != [] {
      assert all[1] == rest[0];
      TokensAt(all, 1);
    }
    TokensAppend([f], rest);
    ScanShift(Tokens([f]), Tokens(rest), 0);
  }

  /** A lone "-" is not a flag. */
  lemma LoneDashIsNotAFlag()
    ensures ScanFrom(["-"], 0) == Parsed([], true)
  {
    TokensAt(["-"], 0);
  }

  /** A value after a flag that already carried "=value" is still taken as
      its value, so a file name there is not seen as a non-flag argument. */
  lemma ValueAfterAssignedFlagSwallowed()
    ensures ScanFrom(["--go_out=.", "a.proto"], 0) == Parsed(["go_out"], false)
  {
    var f := "--" + "go_out" + "=" + ".";
    FlagThenValue("go_out", ".", "a.proto", []);
    assert [f, "a.proto"] + [] == [f, "a.proto"];
    assert f == "--go_out=.";
  }

  /** The "no args" case of the source's test table, for any two names: two
      flags, the second with a value, and no operand. */
  lemma OnlyFlagsExample(n1: string, n2: string, v: string)
    requires ValidFlagName(n1) && ValidFlagName(n2)
    ensures ScanFrom(["--" + n1, "--" + n2 + "=" + v], 0) == Parsed([n1, n2], false)
  {
    var f1 := "--" + n1;
    var f2 := "--" + n2 + "=" + v;
    ExtractFlagNameRoundTrip(n1, v);
    ExtractFlagNameRoundTrip(n2, v);
    FlagThenFlags(f2, []);
    FlagThenFlags(f1, [f2]);
    assert [f2] + [] == [f2];
    assert [f1] + [f2] == [f1, f2];
  }

  /** The "no flags" case of the source's test table. */
  lemma OnlyOperandExample()
    ensures ScanFrom(["whatever"], 0) == Parsed([], true)
  {
    TokensAt(["whatever"], 0);
  }
}

=== FILE: paths.dfy ===
/** Go's lexical path handling on '/'-separated paths (`path/filepath` on a Unix
    host): `Split`, `Clean`, `Join` and `Dir`, together with the segment view
    `Path(rooted, segs)` that the filesystem model is keyed by. */
module Paths {
  import opened Wrappers

  /** `strings.Split(s, "/")`: the pieces between slashes, always at least one. */
  function Split(s: string): (r: seq<string>)
    ensures |r| >= 1
    ensures forall i :: 0 <= i < |r| ==> '/' !in r[i]
    decreases |s|
  {
    if |s| == 0 then [""]
    else if s[0] == '/' then [""] + Split(s[1..])
    else
      var rest := Split(s[1..]);
      [[s[0]] + rest[0]] + rest[1..]
  }

  /** `strings.Join(parts, "/")`. */
  function JoinSlash(parts: seq<string>): string
    decreases |parts|
  {
    if |parts| == 0 then ""
    else if |parts| == 1 then parts[0]
    else parts[0] + "/" + JoinSlash(parts[1..])
  }

  /** Splitting and re-joining gives back the original string. */
  lemma {:induction false} JoinSplit(s: string)
    ensures JoinSlash(Split(s)) == s
    decreases |s|
  {
    if |s| > 0 {
      JoinSplit(s[1..]);
      var rest := Split(s[1..]);
      if s[0] == '/' {
        assert Split(s)[1..] == rest;
      } else if |rest| == 1 {
        assert JoinSlash(Split(s)) == [s[0]] + rest[0];
      } else {
        assert Split(s)[1..] == rest[1..];
        assert JoinSlash(rest) == rest[0] + "/" + JoinSlash(rest[1..]);
      }
    }
  }

  lemma {:induction false} SplitPlain(x: string, tail: string)
    requires '/' !in x
    ensures Split(x + tail) == [x + Split(tail)[0]] + Split(tail)[1..]
    decreases |x|
  {
    if |x| > 0 {
      assert (x + tail)[1..] == x[1..] + tail;
      SplitPlain(x[1..], tail);
      assert [x[0]] + (x[1..] + Split(tail)[0]) == x + Split(tail)[0];
    } else {
      assert x + tail == tail;
      assert x + Split(tail)[0] == Split(tail)[0];
      assert [Split(tail)[0]] + Split(tail)[1..] == Split(tail);
    }
  }

  /** Joining slash-free pieces and splitting again gives back the pieces. */
  lemma {:induction false} SplitJoin(parts: seq<string>)
    requires |parts| >= 1
    requires forall i :: 0 <= i < |parts| ==> '/' !in parts[i]
    ensures Split(JoinSlash(parts)) == parts
    decreases |parts|
  {
    if |parts| == 1 {
      SplitPlain(parts[0], "");
      assert parts[0] + "" == parts[0];
    } else {
      var tail := "/" + JoinSlash(parts[1..]);
      SplitJoin(parts[1..]);
      assert Split(tail) == [""] + parts[1..] by {
        assert tail[1..] == JoinSlash(parts[1..]);
      }
      SplitPlain(parts[0], tail);
      assert parts[0] + "/" + JoinSlash(parts[1..]) == parts[0] + tail;
      assert parts[0] + "" == parts[0];
      assert parts == [parts[0]] + parts[1..];
    }
  }

  /** Splitting "a/b" gives the pieces of a followed by the pieces of b. */
  lemma {:induction false} SplitAppend(a: string, b: string)
    ensures Split(a + "/" + b) == Split(a) + Split(b)
    decreases |a|
  {
    if |a| == 0 {
      assert a + "/" + b == "/" + b;
      assert ("/" + b)[1..] == b;
    } else {
      assert (a + "/" + b)[1..] == a[1..] + "/" + b;
      SplitAppend(a[1..], b);
    }
  }

  /** A path after lexical cleaning: rooted ("/...") or relative, and its
      segments. The relative path with no segments is ".". */
  datatype Path = Path(rooted: bool, segs: seq<string>)

  predicate ValidSegment(seg: string) {
    seg != "" && seg != "." && '/' !in seg
  }

  /** The shape `Clean` produces: no empty or "." segments, and ".." only as a
      leading run of a relative path. */
  predicate IsClean(p: Path) {
    && (forall i :: 0 <= i < |p.segs| ==> ValidSegment(p.segs[i]))
    && (forall i :: 0 <= i < |p.segs| && p.segs[i] == ".." ==> !p.rooted)
    && (forall i, j :: 0 <= i < j < |p.segs| && p.segs[j] == ".." ==> p.segs[i] == "..")
  }

  /** One element of Go's `Clean`: drop "" and ".", let ".." cancel the
      previous real segment, clamp ".." at the root, keep it in a relative path
      that has nothing left to cancel. */
  function CleanStep(rooted: bool, acc: seq<string>, seg: string): seq<string> {
    if seg == "" || seg == "." then acc
    else if seg == ".." then
      if |acc| > 0 && acc[|acc| - 1] != ".." then acc[..|acc| - 1]
      else if rooted then acc
      else acc + [".."]
    else acc + [seg]
  }

  function CleanFrom(rooted: bool, acc: seq<string>, segs: seq<string>): seq<string>
    decreases |segs|
  {
    if |segs| == 0 then acc else CleanFrom(rooted, CleanStep(rooted, acc, segs[0]), segs[1..])
  }

  /** The segment view of `filepath.Clean(s)`. */
  function CleanPath(s: string): Path {
    var rooted := |s| > 0 && s[0] == '/';
    Path(rooted, CleanFrom(rooted, [], Split(s)))
  }

  /** The string form of a cleaned path, as `Clean` prints it. */
  function Render(p: Path): string {
    if p.rooted then "/" + JoinSlash(p.segs)
    else if |p.segs| == 0 then "."
    else JoinSlash(p.segs)
  }

  /** `filepath.Clean(s)`. */
  function Clean(s: string): string {
    Render(CleanPath(s))
  }

  /** `filepath.Join(elems...)`: skip leading empty elements, join the rest
      with "/", clean; "" when every element is empty. */
  function Join(elems: seq<string>): string
    decreases |elems|
  {
    if |elems| == 0 then ""
    else if elems[0] == "" then Join(elems[1..])
    else Clean(JoinSlash(elems))
  }

  /** A join that ends in a name is already clean. */
  lemma {:induction false} JoinIsClean(elems: seq<string>)
    requires |elems| > 0 && elems[|elems| - 1] != ""
    ensures Clean(Join(elems)) == Join(elems)
    decreases |elems|
  {
    if elems[0] == "" {
      assert elems[1..][|elems[1..]| - 1] == elems[|elems| - 1];
      JoinIsClean(elems[1..]);
    } else {
      CleanIdempotent(JoinSlash(elems));
    }
  }

  /** The path-level counterpart of joining a cleaned directory with a name. */
  function Child(dir: Path, name: string): Path {
    Path(dir.rooted, CleanFrom(dir.rooted, dir.segs, Split(name)))
  }

  /** `filepath.Dir` of a cleaned path: everything but the last segment. */
  function Parent(p: Path): Path {
    if |p.segs| == 0 then p else Path(p.rooted, p.segs[..|p.segs| - 1])
  }

  /** `p`'s segments continue `dir`'s: the lexical "child" relation of the
      segment view, in which a ".." after `dir` also counts as a step down. */
  predicate SegmentsExtend(p: Path, dir: Path) {
    p.rooted == dir.rooted && |dir.segs| < |p.segs| && p.segs[..|dir.segs|] == dir.segs
  }

  /** `p` lies strictly below directory `dir`: its segments continue `dir`'s
      and the first step after `dir` goes down rather than back up. */
  predicate StrictlyUnder(p: Path, dir: Path) {
    SegmentsExtend(p, dir) && p.segs[|dir.segs|] != ".."
  }

  /** `a` is `p` itself or one of its ancestors. */
  predicate AncestorOrSelf(a: Path, p: Path) {
    a.rooted == p.rooted && |a.segs| <= |p.segs| && p.segs[..|a.segs|] == a.segs
  }

  // ---------------------------------------------------------------------------
  // Cleaning produces clean paths, and leaves clean paths alone.

  lemma CleanStepClean(rooted: bool, acc: seq<string>, seg: string)
    requires IsClean(Path(rooted, acc)) && '/' !in seg
    ensures IsClean(Path(rooted, CleanStep(rooted, acc, seg)))
  {
  }

  lemma {:induction false} CleanFromClean(rooted: bool, acc: seq<string>, segs: seq<string>)
    requires IsClean(Path(rooted, acc))
    requires forall i :: 0 <= i < |segs| ==> '/' !in segs[i]
    ensures IsClean(Path(rooted, CleanFrom(rooted, acc, segs)))
    decreases |segs|
  {
    if |segs| > 0 {
      CleanStepClean(rooted, acc, segs[0]);
      CleanFromClean(rooted, CleanStep(rooted, acc, segs[0]), segs[1..]);
    }
  }

  /** Every result of `Clean` has the clean shape. */
  lemma CleanPathIsClean(s: string)
    ensures IsClean(CleanPath(s))
  {
    CleanFromClean(|s| > 0 && s[0] == '/', [], Split(s));
  }

  lemma ChildIsClean(dir: Path, name: string)
    requires IsClean(dir)
    ensures IsClean(Child(dir, name))
  {
    CleanFromClean(dir.rooted, dir.segs, Split(name));
  }

  /** Folding the segments of a clean path onto a prefix of it changes nothing. */
  lemma {:induction false} CleanFromOfClean(rooted: bool, acc: seq<string>, c: seq<string>)
    requires IsClean(Path(rooted, acc + c))
    ensures CleanFrom(rooted, acc, c) == acc + c
    decreases |c|
  {
    if |c| > 0 {
      var p := acc + c;
      assert p[|acc|] == c[0];
      if c[0] == ".." {
        assert forall i :: 0 <= i < |acc| ==> acc[i] == p[i];
        assert |acc| > 0 ==> acc[|acc| - 1] == "..";
      }
      assert CleanStep(rooted, acc, c[0]) == acc + [c[0]];
      assert (acc + [c[0]]) + c[1..] == p;
      CleanFromOfClean(rooted, acc + [c[0]], c[1..]);
    } else {
      assert acc + c == acc;
    }
  }

  /** Cleaning is a left fold: cleaning `s1 + s2` is cleaning `s2` onto the
      cleaned `s1`. */
  lemma {:induction false} CleanFromAppend(rooted: bool, acc: seq<string>, s1: seq<string>, s2: seq<string>)
    ensures CleanFrom(rooted, acc, s1 + s2) == CleanFrom(rooted, CleanFrom(rooted, acc, s1), s2)
    decreases |s1|
  {
    if |s1| > 0 {
      assert (s1 + s2)[0] == s1[0];
      assert (s1 + s2)[1..] == s1[1..] + s2;
      CleanFromAppend(rooted, CleanStep(rooted, acc, s1[0]), s1[1..], s2);
    } else {
      assert s1 + s2 == s2;
    }
  }

  lemma JoinSlashHead(segs: seq<string>)
    requires |segs| > 0 && segs[0] != "" && '/' !in segs[0]
    ensures |JoinSlash(segs)| > 0 && JoinSlash(segs)[0] == segs[0][0]
  {
  }

  /** Reading back the rendering of a clean path gives the path itself. */
  lemma RenderParse(p: Path)
    requires IsClean(p)
    ensures CleanPath(Render(p)) == p
  {
    if p.rooted {
      RenderParseRooted(p);
    } else if |p.segs| == 0 {
      assert Split("") == [""];
      assert ['.'] + "" == ".";
      assert Split(".") == ["."];
    } else {
      RenderParseRelative(p);
    }
  }

  lemma RenderParseRooted(p: Path)
    requires IsClean(p) && p.rooted
    ensures CleanPath(Render(p)) == p
  {
    var s := Render(p);
    assert s[0] == '/' && s[1..] == JoinSlash(p.segs);
    assert Split(s) == [""] + Split(JoinSlash(p.segs));
    if |p.segs| == 0 {
      assert Split(s) == ["", ""];
      assert ["", ""][1..] == [""] && [""][1..] == [];
      assert CleanFrom(true, [], [""]) == [];
      assert CleanFrom(true, [], ["", ""]) == [];
    } else {
      SplitJoin(p.segs);
      assert CleanFrom(true, [], Split(s)) == CleanFrom(true, [], p.segs);
      CleanFromOfClean(true, [], p.segs);
      assert [] + p.segs == p.segs;
    }
  }

  lemma RenderParseRelative(p: Path)
    requires IsClean(p) && !p.rooted && |p.segs| > 0
    ensures CleanPath(Render(p)) == p
  {
    var s := Render(p);
    assert s == JoinSlash(p.segs);
    SplitJoin(p.segs);
    JoinSlashHead(p.segs);
    assert s[0] != '/';
    CleanFromOfClean(false, [], p.segs);
    assert [] + p.segs == p.segs;
  }

  /** `Clean` is idempotent. */
  lemma CleanIdempotent(s: string)
    ensures Clean(Clean(s)) == Clean(s)
    ensures CleanPath(Clean(s)) == CleanPath(s)
  {
    CleanPathIsClean(s);
    RenderParse(CleanPath(s));
  }

  /** Two clean paths with the same rendering are the same path. */
  lemma RenderInjective(p: Path, q: Path)
    requires IsClean(p) && IsClean(q) && Render(p) == Render(q)
    ensures p == q
  {
    RenderParse(p);
    RenderParse(q);
  }

  /** The rendering of a path is never empty. */
  lemma RenderNonEmpty(p: Path)
    requires IsClean(p)
    ensures |Render(p)| > 0
  {
    if !p.rooted && |p.segs| > 0 {
      JoinSlashHead(p.segs);
    }
  }

  /** Joining a non-empty directory with a name cleans the two together:
      the result is the name's segments folded onto the cleaned directory. */
  lemma JoinIsChild(dir: string, name: string)
    requires dir != ""
    ensures CleanPath(Join([dir, name])) == Child(CleanPath(dir), name)
  {
    var joined := dir + "/" + name;
    assert JoinSlash([dir, name]) == joined;
    CleanIdempotent(joined);
    SplitAppend(dir, name);
    CleanFromAppend(dir[0] == '/', [], Split(dir), Split(name));
  }

  /** Appending plain segments to a clean path keeps it clean and is exactly
      what the cleaner does with them. */
  lemma ExtendClean(p: Path, ext: seq<string>)
    requires IsClean(p)
    requires forall i :: 0 <= i < |ext| ==> ValidSegment(ext[i]) && ext[i] != ".."
    ensures IsClean(Path(p.rooted, p.segs + ext))
    ensures CleanFrom(p.rooted, p.segs, ext) == p.segs + ext
  {
    var q := Path(p.rooted, p.segs + ext);
    forall i, j | 0 <= i < j < |q.segs| && q.segs[j] == ".."
      ensures q.segs[i] == ".."
    {
      assert j < |p.segs|;
      assert q.segs[j] == p.segs[j] && q.segs[i] == p.segs[i];
    }
    assert IsClean(q);
    CleanFromOfClean(p.rooted, p.segs, ext);
  }

  /** Joining a directory with plain names appends them to the cleaned
      directory, whatever the directory is. */
  lemma JoinPlainNames(dir: string, names: seq<string>)
    requires |names| > 0
    requires forall i :: 0 <= i < |names| ==> ValidSegment(names[i]) && names[i] != ".."
    ensures CleanPath(Join([dir] + names)) ==
      Path(CleanPath(dir).rooted, CleanPath(dir).segs + names)
  {
    var c := CleanPath(dir);
    CleanPathIsClean(dir);
    ExtendClean(c, names);
    SplitJoin(names);
    JoinSlashHead(names);
    var j := JoinSlash(names);
    if dir == "" {
      assert Split(dir) == [""];
      assert c == Path(false, []);
      assert Join([dir] + names) == Join(names) by {
        assert ([dir] + names)[1..] == names;
      }
      CleanIdempotent(j);
      assert c.segs + names == names;
    } else {
      assert JoinSlash([dir] + names) == JoinSlash([dir, j]) by {
        assert ([dir] + names)[1..] == names;
      }
      JoinIsChild(dir, j);
    }
  }

  /** Appending text to the rendering of a clean path extends its last
      segment. */
  lemma AppendToLastSegment(p: Path, x: string)
    requires IsClean(p) && |p.segs| > 0
    requires ValidSegment(p.segs[|p.segs| - 1] + x) && p.segs[|p.segs| - 1] + x != ".."
    ensures CleanPath(Render(p) + x) ==
      Path(p.rooted, p.segs[..|p.segs| - 1] + [p.segs[|p.segs| - 1] + x])
  {
    var n := |p.segs|;
    var q := Path(p.rooted, p.segs[..n - 1] + [p.segs[n - 1] + x]);
    assert IsClean(q) by {
      forall i | 0 <= i < n ensures ValidSegment(q.segs[i]) {
        if i < n - 1 { assert q.segs[i] == p.segs[i]; }
      }
      forall i, j | 0 <= i < j < n && q.segs[j] == ".." ensures q.segs[i] == ".." {
        assert j < n - 1;
        assert q.segs[j] == p.segs[j] && q.segs[i] == p.segs[i];
      }
      forall i | 0 <= i < n && q.segs[i] == ".." ensures !q.rooted {
        assert i < n - 1 && q.segs[i] == p.segs[i];
      }
    }
    JoinSlashAppendLast(p.segs, x);
    if !p.rooted {
      assert Render(p) + x == Render(q);
    } else {
      assert Render(p) + x == "/" + (JoinSlash(p.segs) + x);
    }
    RenderParse(q);
  }

  lemma {:induction false} JoinSlashAppendLast(parts: seq<string>, x: string)
    requires |parts| > 0
    ensures JoinSlash(parts) + x == JoinSlash(parts[..|parts| - 1] + [parts[|parts| - 1] + x])
    decreases |parts|
  {
    var n := |parts|;
    var q := parts[..n - 1] + [parts[n - 1] + x];
    if n > 1 {
      JoinSlashAppendLast(parts[1..], x);
      assert q[1..] == parts[1..][..n - 2] + [parts[1..][n - 2] + x];
      assert q[0] == parts[0];
    }
  }

  // ---------------------------------------------------------------------------
  // The zip-slip guard: a string prefix test on rendered paths, compared with
  // the segment-level meaning of "strictly inside".

  lemma PrefixSlashPlain(x: string, r: string, y: string)
    requires '/' !in y
    ensures !HasPrefix(y, x + "/" + r)
  {
    var pre := x + "/" + r;
    if |pre| <= |y| {
      assert y[..|pre|][|x|] != pre[|x|];
    }
  }

  lemma PrefixSlashPair(x: string, r: string, y: string, s: string)
    requires x != "" && '/' !in x && '/' !in y
    ensures HasPrefix(y + "/" + s, x + "/" + r) <==> x == y && HasPrefix(s, r)
  {
    var big := y + "/" + s;
    var pre := x + "/" + r;
    if |pre| <= |big| {
      if |x| < |y| {
        assert big[..|pre|][|x|] != pre[|x|];
      } else if |x| > |y| {
        assert big[..|pre|][|y|] != pre[|y|];
      } else if x != y {
        var k :| 0 <= k < |x| && x[k] != y[k];
        assert big[..|pre|][k] != pre[k];
      } else {
        assert big[..|pre|] == x + "/" + s[..|r|];
        if big[..|pre|] == pre {
          assert (x + "/" + s[..|r|])[|x| + 1..] == s[..|r|];
          assert pre[|x| + 1..] == r;
        }
      }
    }
    if x == y && HasPrefix(s, r) {
      assert big[..|pre|] == pre;
    }
  }

  /** For segment lists, "J(a) + '/' starts J(b)" holds exactly when `a` is a
      proper prefix of `b`. */
  lemma {:induction false} JoinPrefix(a: seq<string>, b: seq<string>)
    requires |a| > 0
    requires forall i :: 0 <= i < |a| ==> a[i] != "" && '/' !in a[i]
    requires forall i :: 0 <= i < |b| ==> b[i] != "" && '/' !in b[i]
    ensures HasPrefix(JoinSlash(b), JoinSlash(a) + "/") <==> |a| < |b| && b[..|a|] == a
    decreases |a|
  {
    var rest := if |a| == 1 then "" else JoinSlash(a[1..]) + "/";
    assert JoinSlash(a) + "/" == a[0] + "/" + rest;
    if |b| == 0 {
    } else if |b| == 1 {
      PrefixSlashPlain(a[0], rest, b[0]);
    } else {
      PrefixSlashPair(a[0], rest, b[0], JoinSlash(b[1..]));
      if |a| == 1 {
        assert b[..1] == a <==> b[0] == a[0];
      } else {
        JoinPrefix(a[1..], b[1..]);
        assert (|a| < |b| && b[..|a|] == a) <==> (b[0] == a[0] && |a| - 1 < |b| - 1 && b[1..][..|a| - 1] == a[1..]) by {
          if |a| < |b| {
            assert b[..|a|] == [b[0]] + b[1..][..|a| - 1];
            assert a == [a[0]] + a[1..];
          }
        }
      }
    }
  }

  /** A clean path never renders with a leading "./". */
  lemma NoDotSlash(p: Path)
    requires IsClean(p)
    ensures !HasPrefix(Render(p), "./")
  {
    if p.rooted && |Render(p)| >= 2 {
      assert Render(p)[..2][0] == '/';
    }
    if !p.rooted && |p.segs| > 0 {
      assert "./" == "." + "/" + "";
      if |p.segs| == 1 {
        PrefixSlashPlain(".", "", p.segs[0]);
      } else {
        PrefixSlashPair(".", "", p.segs[0], JoinSlash(p.segs[1..]));
      }
    }
  }

  /** A clean rooted path never renders with a leading "//". */
  lemma NoDoubleSlash(p: Path)
    requires IsClean(p) && p.rooted
    ensures !HasPrefix(Render(p), "//")
  {
    if |p.segs| > 0 {
      JoinSlashHead(p.segs);
      assert Render(p)[1] == p.segs[0][0];
    }
  }

  /** The check `extractAll` performs before touching an entry: the joined
      path must start with the cleaned directory followed by a separator. */
  predicate InsideGuard(destDir: string, name: string) {
    HasPrefix(Join([destDir, name]), Clean(destDir) + "/")
  }

  /** The guard accepts an entry exactly when the segments of its joined path
      continue those of the cleaned destination, and that destination is
      neither the root "/" nor the current directory ".". A ".." right after
      the destination's segments passes too (see `GuardLetsEntryClimb`). */
  lemma InsideGuardCharacterisation(destDir: string, name: string)
    ensures InsideGuard(destDir, name) <==>
      |CleanPath(destDir).segs| > 0 && SegmentsExtend(CleanPath(Join([destDir, name])), CleanPath(destDir))
  {
    var c := CleanPath(destDir);
    var j := Join([destDir, name]);
    CleanPathIsClean(destDir);
    if destDir == "" {
      assert c == Path(false, []);
      assert Join([destDir, name]) == Join([name]);
      if name != "" {
        CleanPathIsClean(name);
        NoDotSlash(CleanPath(name));
      }
    } else {
      var p := CleanPath(destDir + "/" + name);
      assert JoinSlash([destDir, name]) == destDir + "/" + name;
      assert j == Render(p);
      CleanPathIsClean(destDir + "/" + name);
      RenderParse(p);
      assert CleanPath(j) == p;
      assert p.rooted == c.rooted;
      if c.rooted {
        if |c.segs| == 0 {
          NoDoubleSlash(p);
        } else {
          assert HasPrefix(Render(p), Render(c) + "/") <==> HasPrefix(JoinSlash(p.segs), JoinSlash(c.segs) + "/") by {
            assert Render(c) + "/" == "/" + (JoinSlash(c.segs) + "/");
            assert Render(p) == "/" + JoinSlash(p.segs);
            PrefixSlashPair("x", JoinSlash(c.segs) + "/", "x", JoinSlash(p.segs));
            assert "/" + (JoinSlash(c.segs) + "/") == ("x" + "/" + (JoinSlash(c.segs) + "/"))[1..];
            assert "/" + JoinSlash(p.segs) == ("x" + "/" + JoinSlash(p.segs))[1..];
          }
          JoinPrefix(c.segs, p.segs);
        }
      } else if |c.segs| == 0 {
        NoDotSlash(p);
      } else if |p.segs| == 0 {
        assert |Render(c) + "/"| > 1;
      } else {
        JoinPrefix(c.segs, p.segs);
      }
    }
  }

  /** An entry that names the destination itself ("." or "a/..") is refused:
      the required prefix carries a trailing separator. */
  lemma GuardRefusesDestDirItself(destDir: string, name: string)
    requires destDir != "" && Clean(Join([destDir, name])) == Clean(destDir)
    ensures !InsideGuard(destDir, name)
  {
    InsideGuardCharacterisation(destDir, name);
    CleanIdempotent(Join([destDir, name]));
    CleanIdempotent(destDir);
  }

  /** With a destination that cleans to "/" or ".", the guard refuses every
      entry, however harmless its name. */
  lemma GuardRefusesRootAndDot(destDir: string, name: string)
    requires Clean(destDir) == "/" || Clean(destDir) == "."
    ensures !InsideGuard(destDir, name)
  {
    InsideGuardCharacterisation(destDir, name);
    CleanPathIsClean(destDir);
    RenderOfSegments(CleanPath(destDir));
  }

  /** Only the segment-free paths render as "/" or ".". */
  lemma RenderOfSegments(p: Path)
    requires IsClean(p)
    ensures |p.segs| > 0 ==> Render(p) != "/" && Render(p) != "."
  {
    if |p.segs| > 0 {
      JoinSlashHead(p.segs);
      if p.rooted {
        assert Render(p)[1] == p.segs[0][0];
      } else if |p.segs| == 1 {
        assert Render(p) == p.segs[0];
      } else {
        assert Render(p)[|p.segs[0]|] == '/';
      }
    }
  }

  // ---------------------------------------------------------------------------
  // The guard as written lets ".." entries climb above a destination made of
  // ".." segments only; the corrected guard also refuses a remainder that
  // goes back up.

  /** With destination "..", an entry "../x" passes the guard although it
      lands at "../../x", which is not below "..". */
  lemma GuardLetsEntryClimb(x: string)
    requires ValidSegment(x) && x != ".."
    ensures InsideGuard("..", "../" + x)
    ensures CleanPath(Join(["..", "../" + x])) == Path(false, ["..", "..", x])
    ensures !StrictlyUnder(CleanPath(Join(["..", "../" + x])), CleanPath(".."))
  {
    var segs := ["..", "..", x];
    var p := Path(false, segs);
    var s := JoinSlash(segs);
    assert IsClean(p);
    assert segs[1..] == ["..", x] && segs[1..][1..] == [x];
    assert JoinSlash([x]) == x;
    assert JoinSlash(["..", x]) == ".." + "/" + x;
    assert s == ".." + "/" + JoinSlash(["..", x]);
    assert JoinSlash(["..", "../" + x]) == s;
    SplitJoin(segs);
    CleanFromOfClean(false, [], segs);
    assert [] + segs == segs;
    JoinSlashHead(segs);
    assert CleanPath(s) == p;
    assert Join(["..", "../" + x]) == Render(p);
    RenderParse(p);
    SplitJoin([".."]);
    CleanFromOfClean(false, [], [".."]);
    assert [] + [".."] == [".."];
    assert CleanPath("..") == Path(false, [".."]);
    assert Render(p)[..3] == Clean("..") + "/";
  }

  /** What follows the destination prefix goes back up: it is ".." or starts
      with "../". */
  predicate ClimbsOut(rest: string) {
    rest == ".." || HasPrefix(rest, "../")
  }

  /** The guard as evidently intended: the joined path starts with the
      cleaned destination and a separator, and the remainder does not climb
      back out of it. */
  predicate SafeGuard(destDir: string, name: string) {
    var prefix := Clean(destDir) + "/";
    var destPath := Join([destDir, name]);
    HasPrefix(destPath, prefix) && !ClimbsOut(destPath[|prefix|..])
  }

  /** The corrected guard accepts an entry exactly when its joined path lies
      strictly below the cleaned destination, and that destination is
      neither "/" nor ".". */
  lemma SafeGuardCharacterisation(destDir: string, name: string)
    ensures SafeGuard(destDir, name) <==>
      |CleanPath(destDir).segs| > 0 && StrictlyUnder(CleanPath(Join([destDir, name])), CleanPath(destDir))
  {
    InsideGuardCharacterisation(destDir, name);
    var c := CleanPath(destDir);
    var j := Join([destDir, name]);
    if InsideGuard(destDir, name) {
      var p0 := CleanPath(destDir + "/" + name);
      assert JoinSlash([destDir, name]) == destDir + "/" + name;
      assert j == Render(p0);
      CleanPathIsClean(destDir + "/" + name);
      RenderParse(p0);
      var p := CleanPath(j);
      assert p == p0;
      var n := |c.segs|;
      var q := p.segs[n..];
      assert p.segs == c.segs + q;
      JoinSlashConcat(c.segs, q);
      var prefix := Clean(destDir) + "/";
      assert j == prefix + JoinSlash(q) by {
        if p.rooted {
          assert j == "/" + (JoinSlash(c.segs) + "/" + JoinSlash(q));
        }
      }
      assert j[|prefix|..] == JoinSlash(q);
      ClimbsOutJoin(q);
    }
  }

  /** Joining two non-empty segment lists puts one separator between them. */
  lemma {:induction false} JoinSlashConcat(a: seq<string>, b: seq<string>)
    requires |a| > 0 && |b| > 0
    ensures JoinSlash(a + b) == JoinSlash(a) + "/" + JoinSlash(b)
    decreases |a|
  {
    if |a| > 1 {
      JoinSlashConcat(a[1..], b);
      assert (a + b)[1..] == a[1..] + b;
    } else {
      assert (a + b)[1..] == b;
    }
  }

  /** A rendered run of segments climbs out exactly when its first segment is
      "..". */
  lemma ClimbsOutJoin(q: seq<string>)
    requires |q| > 0 && forall i :: 0 <= i < |q| ==> ValidSegment(q[i])
    ensures ClimbsOut(JoinSlash(q)) <==> q[0] == ".."
  {
    assert ValidSegment(q[0]);
    assert "../" == ".." + "/" + "";
    if |q| == 1 {
      PrefixSlashPlain("..", "", q[0]);
    } else {
      var t := q[0] + "/" + JoinSlash(q[1..]);
      PrefixSlashPair("..", "", q[0], JoinSlash(q[1..]));
      assert t != ".." by {
        if |t| == 2 {
          assert t[|q[0]|] == '/';
        }
      }
    }
  }

  /** A relative path made of ".." segments only: in a clean path these
      come first, so its last segment is "..". */
  predicate UpwardOnly(c: Path) {
    !c.rooted && |c.segs| > 0 && c.segs[|c.segs| - 1] == ".."
  }

  /** Except below a destination of ".." segments only, the guard as written
      and the corrected guard agree: below a rooted destination, or one whose
      last segment is a real name, cleaning never leaves a ".." right after
      the prefix, and "." is refused by both. */
  lemma GuardSafeBelowNamedDir(destDir: string, name: string)
    requires !UpwardOnly(CleanPath(destDir))
    ensures InsideGuard(destDir, name) <==> SafeGuard(destDir, name)
  {
    InsideGuardCharacterisation(destDir, name);
    SafeGuardCharacterisation(destDir, name);
    var c := CleanPath(destDir);
    var p := CleanPath(Join([destDir, name]));
    CleanPathIsClean(Join([destDir, name]));
  }
}

=== FILE: protoc_downloader.dfy ===
/** The older `ProtocDownloader`: its own copy of the release URL and file
    name rules, and the rule that picks the protoc binary out of an
    archive. */
module ProtocDownloader {
  import opened Wrappers
  import opened Paths
  import opened FileSystem
  import UrlResolver
  import ZipDownloader

  /** `getPlatformFilename`, which trims the 'v' itself. */
  function PlatformFilename(version: string, goos: string, goarch: string): string {
    if goos == "windows" then
      if goarch == "386" then "protoc-" + TrimV(version) + "-win32.zip"
      else "protoc-" + TrimV(version) + "-win64.zip"
    else
      "protoc-" + TrimV(version) + "-" + UrlResolver.PlatformName(goos) + "-" + UrlResolver.ArchName(goarch) + ".zip"
  }

  /** `GetDownloadURL`: the tag gets a leading 'v' when it has none. */
  function GetDownloadURL(tag: string, goos: string, goarch: string): (u: string)
    ensures HasPrefix(u, "https://github.com" + UrlResolver.ReleasesPath + "v")
  {
    var t := if HasPrefix(tag, "v") then tag else "v" + tag;
    "https://github.com" + UrlResolver.ReleasesPath + t + "/" + PlatformFilename(t, goos, goarch)
  }

  /** This copy of the file name rules is the resolver's, applied to the
      version without its leading 'v'. */
  lemma SameFilenameRules(version: string, goos: string, goarch: string)
    ensures PlatformFilename(version, goos, goarch) ==
      UrlResolver.PlatformFilename(TrimV(version), goos, goarch)
  {
  }

  /** For every input the URL is the resolver's path on github.com. */
  lemma SameUrlAsResolver(tag: string, goos: string, goarch: string)
    ensures GetDownloadURL(tag, goos, goarch) ==
      "https://github.com" + UrlResolver.ResolveURL(tag, goos, goarch).value.path
  {
    var t := if HasPrefix(tag, "v") then tag else "v" + tag;
    assert t[..1] == "v";
    assert TrimV(t) == TrimV(tag) by {
      if !HasPrefix(tag, "v") {
        assert t[1..] == tag;
      }
    }
    assert t == "v" + TrimV(tag);
  }

  /** "25.3" and "v25.3" give the same URL. */
  lemma LeadingVOptional(tag: string, goos: string, goarch: string)
    requires !HasPrefix(tag, "v")
    ensures GetDownloadURL("v" + tag, goos, goarch) == GetDownloadURL(tag, goos, goarch)
  {
  }

  /** The entries the downloader takes for the protoc binary. */
  predicate IsProtocEntry(name: string) {
    HasSuffix(name, "bin/protoc") || HasSuffix(name, "bin/protoc.exe")
  }

  /** The position of the first protoc entry, if there is one. */
  function FirstProtocEntry(es: seq<ZipDownloader.Entry>): (i: Option<nat>)
    ensures i.Some? ==> i.value < |es| && IsProtocEntry(es[i.value].name)
    ensures forall j :: 0 <= j < |es| && (i.None? || j < i.value) ==> !IsProtocEntry(es[j].name)
  {
    if |es| == 0 then None
    else if IsProtocEntry(es[0].name) then Some(0)
    else match FirstProtocEntry(es[1..])
      case None => None
      case Some(k) => Some(k + 1)
  }

  /** The binary's name on a system. */
  function BinaryName(goos: string): string {
    if goos == "windows" then "protoc.exe" else "protoc"
  }

  /** The filesystem after the call and the path it returned. */
  datatype Outcome = Outcome(fs: FS, result: Result<string>)

  /** `extractFile`: open the entry, create or truncate the output, copy;
      a copy that fails part-way leaves what it wrote. */
  function ExtractFile(fs: FS, e: ZipDownloader.Entry, out: Path): (x: ZipDownloader.Extraction)
    ensures x.err.None? ==> e.payload.Stored? && out in x.fs && x.fs[out].File? && x.fs[out].data == e.payload.data
    ensures x.fs.Keys <= fs.Keys + {out} && forall k :: k in fs && k != out ==> k in x.fs && x.fs[k] == fs[k]
  {
    if e.payload.Unopenable? then ZipDownloader.Extraction(fs, Some(e.payload.err))
    else match CreateTruncate(fs, out, e.mode)
      case Err(m) => ZipDownloader.Extraction(fs, Some(m))
      case Ok(fs1) =>
        if e.payload.Stored? then ZipDownloader.Extraction(WriteData(fs1, out, e.payload.data), None)
        else ZipDownloader.Extraction(WriteData(fs1, out, e.payload.partial), Some(e.payload.err))
  }

  /** `extractProtocFromZip`: the first protoc entry is written to
      `extractDir/bin/protoc` (".exe" on windows) and, off windows, made
      executable. */
  function ExtractProtocFromZip(fs: FS, archive: Result<seq<ZipDownloader.Entry>>, extractDir: string, goos: string): (o: Outcome)
    ensures o.result.Ok? ==> o.result.value == Join([Join([extractDir, "bin"]), BinaryName(goos)])
    ensures archive.Ok? && FirstProtocEntry(archive.value).None? ==>
      o == Outcome(fs, Err("protoc binary not found in archive"))
    ensures o.result.Ok? ==>
      archive.Ok? && FirstProtocEntry(archive.value).Some? &&
      var e := archive.value[FirstProtocEntry(archive.value).value];
      var out := CleanPath(o.result.value);
      && e.payload.Stored? && out in o.fs && o.fs[out].File? && o.fs[out].data == e.payload.data
      && (goos != "windows" ==> o.fs[out].mode == ModePerm)
  {
    match archive
    case Err(m) => Outcome(fs, Err(m))
    case Ok(es) =>
      match FirstProtocEntry(es)
      case None => Outcome(fs, Err("protoc binary not found in archive"))
      case Some(i) =>
        var binDir := Join([extractDir, "bin"]);
        match MkdirAll(fs, CleanPath(binDir), ModePerm)
        case Err(m) => Outcome(fs, Err(Wrap("failed to create bin directory", m)))
        case Ok(fs1) =>
          var outputPath := Join([binDir, BinaryName(goos)]);
          var out := CleanPath(outputPath);
          var x := ExtractFile(fs1, es[i], out);
          if x.err.Some? then Outcome(x.fs, Err(Wrap("failed to extract protoc binary", x.err.value)))
          else
            var fs2 := x.fs;
            if goos != "windows" then
              match Chmod(fs2, out, ModePerm)
              case Err(m) => Outcome(fs2, Err(Wrap("failed to make protoc executable", m)))
              case Ok(fs3) => Outcome(fs3, Ok(outputPath))
            else Outcome(fs2, Ok(outputPath))
  }
}

=== FILE: url_resolver.dfy ===
/** `ProtocURLResolver`: the GitHub release URL of the protoc archive for a
    version and a Go platform. */
module UrlResolver {
  import opened Wrappers

  /** The parts of a `url.URL` the resolver sets. */
  datatype Url = Url(scheme: string, host: string, path: string)

  const ReleasesPath: string := "/protocolbuffers/protobuf/releases/download/"

  /** protobuf's name for a Go operating system (not used for windows). */
  function PlatformName(goos: string): string {
    if goos == "darwin" then "osx"
    else if goos == "linux" then "linux"
    else goos
  }

  /** protobuf's name for a Go architecture (not used for windows). */
  function ArchName(goarch: string): string {
    if goarch == "amd64" then "x86_64"
    else if goarch == "arm64" then "aarch_64"
    else goarch
  }

  /** `getPlatformFilename`: windows has its own two names, every other
      system is named by platform and architecture. */
  function PlatformFilename(version: string, goos: string, goarch: string): string {
    if goos == "windows" then
      if goarch == "386" then "protoc-" + version + "-win32.zip"
      else "protoc-" + version + "-win64.zip"
    else
      "protoc-" + version + "-" + PlatformName(goos) + "-" + ArchName(goarch) + ".zip"
  }

  /** What follows the version in a platform's file name. */
  function PlatformSuffix(goos: string, goarch: string): string {
    if goos == "windows" then (if goarch == "386" then "-win32.zip" else "-win64.zip")
    else "-" + PlatformName(goos) + "-" + ArchName(goarch) + ".zip"
  }

  /** `ResolveURL`: one leading 'v' is dropped from the version, which then
      names both the release tag and the archive. It never fails. */
  function ResolveURL(version: string, goos: string, goarch: string): (r: Result<Url>)
    ensures r.Ok? && r.value.scheme == "https" && r.value.host == "github.com"
    ensures HasPrefix(r.value.path, ReleasesPath + "v" + TrimV(version) + "/")
  {
    var sv := TrimV(version);
    Ok(Url("https", "github.com", ReleasesPath + "v" + sv + "/" + PlatformFilename(sv, goos, goarch)))
  }

  /** The URL as text, without `url.URL`'s percent-encoding. */
  function UrlText(u: Url): string {
    u.scheme + "://" + u.host + u.path
  }

  /** Reads the version back out of a platform's file name. */
  function VersionOfFilename(f: string, goos: string, goarch: string): (v: Option<string>)
    ensures v.Some? ==> |v.value| + 7 + |PlatformSuffix(goos, goarch)| == |f|
  {
    var suffix := PlatformSuffix(goos, goarch);
    if |f| >= 7 + |suffix| && HasPrefix(f, "protoc-") && HasSuffix(f, suffix)
    then Some(f[7..|f| - |suffix|]) else None
  }

  /** A file name is "protoc-", the version and the platform suffix. */
  lemma FilenameShape(version: string, goos: string, goarch: string)
    ensures PlatformFilename(version, goos, goarch) == "protoc-" + version + PlatformSuffix(goos, goarch)
  {
  }

  /** The version can be read back from the file name the resolver builds. */
  lemma FilenameRoundTrip(version: string, goos: string, goarch: string)
    ensures VersionOfFilename(PlatformFilename(version, goos, goarch), goos, goarch) == Some(version)
  {
    var suffix := PlatformSuffix(goos, goarch);
    var g := PlatformFilename(version, goos, goarch);
    FilenameShape(version, goos, goarch);
    assert g[..7] == "protoc-";
    assert g[|g| - |suffix|..] == suffix;
    assert g[7..|g| - |suffix|] == version;
  }

  /** Only a name the resolver builds gives a version back, so reading and
      building are inverse. */
  lemma FilenameOnlyFromResolver(goos: string, goarch: string, f: string)
    ensures VersionOfFilename(f, goos, goarch).Some? ==>
      PlatformFilename(VersionOfFilename(f, goos, goarch).value, goos, goarch) == f
  {
    var suffix := PlatformSuffix(goos, goarch);
    var v := VersionOfFilename(f, goos, goarch);
    if v.Some? {
      FilenameShape(v.value, goos, goarch);
      assert f == f[..7] + f[7..|f| - |suffix|] + f[|f| - |suffix|..];
    }
  }

  /** The middle part of a three-part concatenation. */
  lemma MiddleOfThree(x: string, y: string, z: string)
    ensures |x + y + z| == |x| + |y| + |z|
    ensures (x + y + z)[|x|..|x| + |y|] == y
  {
  }

  /** The trimmed version sits right after the release directory's "v", and
      the path's length fixes its length. */
  lemma VersionInPath(version: string, goos: string, goarch: string)
    ensures var p := ResolveURL(version, goos, goarch).value.path;
      var sv := TrimV(version);
      var n := |ReleasesPath| + 1;
      && |p| == n + 2 * |sv| + 8 + |PlatformSuffix(goos, goarch)|
      && p[n..n + |sv|] == sv
  {
    var sv := TrimV(version);
    var x := ReleasesPath + "v";
    var f := PlatformFilename(sv, goos, goarch);
    FilenameShape(sv, goos, goarch);
    assert |f| == 7 + |sv| + |PlatformSuffix(goos, goarch)|;
    assert x + sv + "/" + f == x + sv + ("/" + f);
    MiddleOfThree(x, sv, "/" + f);
  }

  /** Two versions give the same URL exactly when they agree once one
      leading 'v' is dropped. */
  lemma SameUrlIffSameTrimmedVersion(a: string, b: string, goos: string, goarch: string)
    ensures ResolveURL(a, goos, goarch) == ResolveURL(b, goos, goarch) <==> TrimV(a) == TrimV(b)
  {
    VersionInPath(a, goos, goarch);
    VersionInPath(b, goos, goarch);
  }

  /** "v32.1" and "32.1" name the same archive. */
  lemma LeadingVIgnored(version: string, goos: string, goarch: string)
    requires !HasPrefix(version, "v")
    ensures ResolveURL("v" + version, goos, goarch) == ResolveURL(version, goos, goarch)
  {
    assert ("v" + version)[1..] == version;
  }

  /** On windows the 32-bit name is used exactly for "386". */
  lemma WindowsNaming(version: string, goarch: string)
    ensures HasSuffix(PlatformFilename(version, "windows", goarch), "-win32.zip") <==> goarch == "386"
    ensures HasSuffix(PlatformFilename(version, "windows", goarch), "-win64.zip") <==> goarch != "386"
  {
    var f := PlatformFilename(version, "windows", goarch);
    assert f[|f| - 10..] == (if goarch == "386" then "-win32.zip" else "-win64.zip");
  }

  /** Systems and architectures outside the table keep their Go names. */
  lemma UnknownNamesPassThrough(version: string, goos: string, goarch: string)
    requires goos != "windows" && goos != "darwin" && goarch != "amd64" && goarch != "arm64"
    ensures PlatformFilename(version, goos, goarch) == "protoc-" + version + "-" + goos + "-" + goarch + ".zip"
  {
  }

  /** Examples from the resolver's tests: an empty version leaves a bare "v"
      as the release directory and "protoc-" directly followed by the
      platform, as in `v/protoc--linux-x86_64.zip`. */
  lemma EmptyVersionExample(goos: string, goarch: string)
    ensures ResolveURL("", goos, goarch).value.path == ReleasesPath + "v/" + "protoc-" + PlatformSuffix(goos, goarch)
  {
    var sfx := PlatformSuffix(goos, goarch);
    FilenameShape("", goos, goarch);
    assert "protoc-" + "" + sfx == "protoc-" + sfx;
    assert "v" + "" + "/" == "v/";
    assert ReleasesPath + "v" + "" + "/" + ("protoc-" + sfx) == ReleasesPath + "v/" + "protoc-" + sfx;
  }

  // Examples from the resolver's tests, one file name each.

  lemma LinuxArmExample()
    ensures PlatformFilename("32.1", "linux", "arm64") == "protoc-32.1-linux-aarch_64.zip"
  {
  }

  lemma LinuxAmdExample()
    ensures PlatformFilename("25.3", "linux", "amd64") == "protoc-25.3-linux-x86_64.zip"
  {
  }

  lemma DarwinAmdExample()
    ensures PlatformFilename("25.3", "darwin", "amd64") == "protoc-25.3-osx-x86_64.zip"
  {
  }

  lemma DarwinArmExample()
    ensures PlatformFilename("25.3", "darwin", "arm64") == "protoc-25.3-osx-aarch_64.zip"
  {
  }

  lemma Windows32Example()
    ensures PlatformFilename("25.3", "windows", "386") == "protoc-25.3-win32.zip"
  {
  }

  lemma Windows64Example()
    ensures PlatformFilename("25.3", "windows", "arm64") == "protoc-25.3-win64.zip"
  {
  }

  /** An unknown system keeps its name. */
  lemma UnknownSystemExample()
    ensures PlatformFilename("25.3", "openbsd", "amd64") == "protoc-25.3-openbsd-x86_64.zip"
  {
  }

  /** An unknown architecture keeps its name. */
  lemma UnknownArchExample()
    ensures PlatformFilename("25.3", "linux", "riscv64") == "protoc-25.3-linux-riscv64.zip"
  {
    assert ArchName("riscv64") == "riscv64";
  }

  /** Examples from the resolver's tests: the version that names the release. */
  lemma TrimExamples()
    ensures TrimV("v32.1") == "32.1" && TrimV("32.0") == "32.0"
    ensures TrimV("") == "" && TrimV("25.3-rc1") == "25.3-rc1"
  {
    assert "32.0"[..1][0] == '3';
    assert "25.3-rc1"[..1][0] == '2';
  }
}

=== FILE: version_resolver.dfy ===
/** `ProtocVersionResolver`: a release tag becomes a version by dropping one
    leading 'v'; the tag "latest" is first looked up on the GitHub API. */
module VersionResolver {
  import opened Wrappers
  import opened Decimal

  /** What the request for the latest release produced: a transport error,
      or a status code and what decoding the JSON body gave. */
  datatype LatestRelease =
    | FetchFailed(err: string)
    | Answered(statusCode: int, decoded: Result<string>)

  const LatestTag: string := "latest"

  /** `getLatestReleaseTag`: the `tag_name` of a 200 reply that decodes. */
  function GetLatestReleaseTag(reply: LatestRelease): (r: Result<string>)
    ensures r.Ok? <==> reply.Answered? && reply.statusCode == 200 && reply.decoded.Ok?
    ensures r.Ok? ==> r.value == reply.decoded.value
  {
    match reply
    case FetchFailed(e) => Err(Wrap("failed to fetch latest release", e))
    case Answered(code, decoded) =>
      if code != 200 then Err("GitHub API returned status " + FormatInt(code))
      else match decoded
        case Err(m) => Err(Wrap("failed to decode response", m))
        case Ok(tag) => Ok(tag)
  }

  /** `version` is `tag` with a single leading 'v' removed, if it had one. */
  predicate DropsOneV(tag: string, version: string) {
    if HasPrefix(tag, "v") then tag == "v" + version else tag == version
  }

  /** `ResolveVersion(tag)`. */
  function ResolveVersion(tag: string, latest: LatestRelease): (r: Result<string>)
    ensures tag != LatestTag ==> r.Ok? && DropsOneV(tag, r.value)
    ensures tag == LatestTag ==> (r.Ok? <==> GetLatestReleaseTag(latest).Ok?)
    ensures tag == LatestTag && r.Ok? ==> DropsOneV(GetLatestReleaseTag(latest).value, r.value)
    ensures r.Err? ==>
      r.msg == "failed to get latest release tag: " + GetLatestReleaseTag(latest).msg
  {
    var t :- if tag == LatestTag then
        match GetLatestReleaseTag(latest)
        case Ok(v) => Ok(v)
        case Err(m) => Err(Wrap("failed to get latest release tag", m))
      else Ok(tag);
    Ok(TrimV(t))
  }

  /** Only "latest" consults the release lookup: any other tag resolves the
      same whatever the lookup would say. */
  lemma OnlyLatestConsultsLookup(tag: string, a: LatestRelease, b: LatestRelease)
    requires tag != LatestTag
    ensures ResolveVersion(tag, a) == ResolveVersion(tag, b) == Ok(TrimV(tag))
  {
  }

  /** "latest" trims the answer exactly as an explicit tag would be. */
  lemma LatestTrimmedLikeTag(latest: LatestRelease)
    requires GetLatestReleaseTag(latest).Ok? && GetLatestReleaseTag(latest).value != LatestTag
    ensures ResolveVersion(LatestTag, latest) ==
      ResolveVersion(GetLatestReleaseTag(latest).value, latest)
  {
  }

  /** Examples from the resolver's tests. */
  lemma ResolveExamples(latest: LatestRelease)
    ensures ResolveVersion("v25.3", latest) == Ok("25.3")
    ensures ResolveVersion("25.3", latest) == Ok("25.3")
    ensures ResolveVersion("v25.3-rc1", latest) == Ok("25.3-rc1")
    ensures ResolveVersion("", latest) == Ok("")
  {
    assert "25.3"[..1][0] == '2';
  }
}

=== FILE: wrappers.dfy ===
/** Failure-carrying values shared by every module of the model.
    A Go `(T, error)` pair becomes a `Result<T>`; Go's `error` becomes its
    message text, since every caller in the program only wraps or prints it. */
module Wrappers {

  datatype Option<+T> = None | Some(value: T)

  /** Either a value or the text of the error that replaced it. */
  datatype Result<+T> = Ok(value: T) | Err(msg: string) {
    predicate IsFailure() {
      Err?
    }

    function PropagateFailure<U>(): Result<U>
      requires Err?
    {
      Err(msg)
    }

    function Extract(): T
      requires Ok?
    {
      value
    }
  }

  /** The message of `fmt.Errorf(context + ": %w", cause)`. */
  function Wrap(context: string, cause: string): (m: string)
    ensures |m| == |context| + 2 + |cause|
    ensures m[..|context|] == context && m[|context|..|context| + 2] == ": "
    ensures m[|context| + 2..] == cause
  {
    context + ": " + cause
  }

  /** `strings.HasPrefix`. */
  predicate HasPrefix(s: string, prefix: string) {
    |prefix| <= |s| && s[..|prefix|] == prefix
  }

  /** `strings.HasSuffix`. */
  predicate HasSuffix(s: string, suffix: string) {
    |suffix| <= |s| && s[|s| - |suffix|..] == suffix
  }

  /** `strings.TrimPrefix(s, "v")`: removes at most one leading 'v'. */
  function TrimV(s: string): (r: string)
    ensures HasPrefix(s, "v") ==> s == "v" + r
    ensures !HasPrefix(s, "v") ==> r == s
  {
    if |s| > 0 && s[0] == 'v' then s[1..] else s
  }
}

=== FILE: zip_downloader.dfy ===
/** `ZipDownloader.DownloadAndExtract` and `extractAll`: a zip archive is
    downloaded to a temporary file and its entries are written below a
    destination directory, each behind the zip-slip guard. The archive
    decoder, the temporary name and the network are parameters. */
module ZipDownloader {
  import opened Wrappers
  import opened Paths
  import opened FileSystem
  import FileDownloader

  /** An entry's contents as the archive delivers them: readable in full,
      impossible to open, or failing part-way through decompression. */
  datatype Payload =
    | Stored(data: Bytes)
    | Unopenable(err: string)
    | Corrupt(partial: Bytes, err: string)

  /** One member of the archive's central directory. */
  datatype Entry = Entry(name: string, isDir: bool, mode: FileMode, payload: Payload)

  /** The filesystem after extraction stopped, and why it stopped, if early. */
  datatype Extraction = Extraction(fs: FS, err: Option<string>)

  /** Where an entry lands: `filepath.Join(destDir, name)`, as the `os`
      calls read it. */
  function Dest(destDir: string, e: Entry): Path {
    CleanPath(Join([destDir, e.name]))
  }

  /** Where the zip-slip guard as written lets a write land: a path whose
      segments continue `root`'s and whose next step goes down, except that
      below a `root` of ".." segments only a further ".." passes as well. */
  predicate GuardedUnder(k: Path, root: Path) {
    SegmentsExtend(k, root) && (StrictlyUnder(k, root) || UpwardOnly(root))
  }

  /** The nodes that differ between `fs` and `fs'` lie `GuardedUnder` `root`,
      or are directories on the way to it; nothing is removed. */
  predicate Confined(fs: FS, fs': FS, root: Path) {
    && fs.Keys <= fs'.Keys
    && forall k :: k in fs' && (k !in fs || fs'[k] != fs[k]) ==>
         GuardedUnder(k, root) || (AncestorOrSelf(k, root) && fs'[k].Dir?)
  }

  /** Unless `root` is made of ".." segments only, confinement is true
      containment: every change lies strictly below `root` or is a directory
      on the way to it. */
  lemma ConfinedBelowNamedDir(fs: FS, fs': FS, root: Path)
    requires Confined(fs, fs', root) && !UpwardOnly(root)
    ensures forall k :: k in fs' && (k !in fs || fs'[k] != fs[k]) ==>
      StrictlyUnder(k, root) || (AncestorOrSelf(k, root) && fs'[k].Dir?)
  {
  }

  /** Only `dest` and newly created directories on the way to it differ. */
  predicate Local(fs: FS, fs': FS, dest: Path) {
    && fs.Keys <= fs'.Keys
    && (forall k :: k in fs && k != dest ==> fs'[k] == fs[k])
    && (forall k :: k in fs' && k !in fs ==> AncestorOrSelf(k, dest) && (k == dest || fs'[k].Dir?))
  }

  /** A directory entry: `MkdirAll` with the entry's mode, whose error is not
      checked. */
  function ExtractDir(fs: FS, dest: Path, mode: FileMode): (fs': FS)
    ensures Local(fs, fs', dest) && KindsKept(fs, fs')
    ensures forall k :: k in fs ==> fs'[k] == fs[k]
    ensures forall k :: k in fs' && k !in fs ==> fs'[k] == Dir(mode)
  {
    match MkdirAll(fs, dest, mode)
    case Ok(fs1) => fs1
    case Err(_) => fs
  }

  /** A file entry: create its directory, open the entry, create or
      truncate the destination and copy the contents into it. */
  function ExtractFile(fs: FS, dest: Path, e: Entry): (x: Extraction)
    ensures Local(fs, x.fs, dest) && KindsKept(fs, x.fs)
    ensures x.err.None? ==> e.payload.Stored? && dest in x.fs && x.fs[dest] == File(x.fs[dest].mode, e.payload.data)
    ensures x.err.None? ==> IsDirAt(x.fs, Parent(dest))
  {
    ParentUnderSelf(dest);
    match MkdirAll(fs, Parent(dest), DirPerm)
    case Err(m) => Extraction(fs, Some(Wrap("failed to create directory", m)))
    case Ok(fs1) =>
      if e.payload.Unopenable? then Extraction(fs1, Some(Wrap("failed to open file in zip", e.payload.err)))
      else match CreateTruncate(fs1, dest, e.mode)
        case Err(m) => Extraction(fs1, Some(Wrap("failed to create destination file", m)))
        case Ok(fs2) =>
          if e.payload.Stored? then Extraction(WriteData(fs2, dest, e.payload.data), None)
          else Extraction(WriteData(fs2, dest, e.payload.partial), Some(Wrap("failed to extract file", e.payload.err)))
  }

  /** One iteration of the loop in `extractAll`: the guard as the program
      states it, `InsideGuard`, then the entry. Below a destination of ".."
      segments only this guard lets a "../" entry climb one level higher
      (`ExtractionClimbsAboveDotDot`). */
  function ExtractEntry(fs: FS, destDir: string, e: Entry): (x: Extraction)
    ensures !InsideGuard(destDir, e.name) ==> x == Extraction(fs, Some("invalid file path: " + e.name))
    ensures Confined(fs, x.fs, CleanPath(destDir))
    ensures KindsKept(fs, x.fs)
    ensures forall k :: k in fs && k != Dest(destDir, e) ==> x.fs[k] == fs[k]
    ensures e.isDir ==> forall k :: k in fs ==> x.fs[k] == fs[k]
    ensures x.err.None? ==> InsideGuard(destDir, e.name)
    ensures x.err.None? && !e.isDir ==> var dest := Dest(destDir, e);
      && e.payload.Stored? && dest in x.fs && x.fs[dest].File? && x.fs[dest].data == e.payload.data
      && IsDirAt(x.fs, Parent(dest))
    ensures InsideGuard(destDir, e.name) && e.isDir ==>
      x.err.None? && (IsDirAt(x.fs, Dest(destDir, e)) || FileOnPath(fs, Dest(destDir, e)))
  {
    if !InsideGuard(destDir, e.name) then Extraction(fs, Some("invalid file path: " + e.name))
    else
      var dest := Dest(destDir, e);
      GuardedDest(destDir, e.name);
      var x := if e.isDir then Extraction(ExtractDir(fs, dest, e.mode), None) else ExtractFile(fs, dest, e);
      LocalConfined(fs, x.fs, dest, CleanPath(destDir));
      x
  }

  /** An entry the guard as written admits lands `GuardedUnder` the cleaned
      destination. */
  lemma GuardedDest(destDir: string, name: string)
    requires InsideGuard(destDir, name)
    ensures GuardedUnder(CleanPath(Join([destDir, name])), CleanPath(destDir))
  {
    InsideGuardCharacterisation(destDir, name);
    if !UpwardOnly(CleanPath(destDir)) {
      GuardSafeBelowNamedDir(destDir, name);
      SafeGuardCharacterisation(destDir, name);
    }
  }

  /** The guard as written, at work: below the destination "..", the file
      entry "../x" passes, and in an empty tree its contents are written to
      "../../x", a path that is not below the destination. */
  lemma ExtractionClimbsAboveDotDot(x: string, mode: FileMode, data: Bytes)
    requires ValidSegment(x) && x != ".."
    ensures var r := ExtractEntry(map[], "..", Entry("../" + x, false, mode, Stored(data)));
      var out := Path(false, ["..", "..", x]);
      && r.err.None? && out in r.fs && r.fs[out].File? && r.fs[out].data == data
      && !StrictlyUnder(out, CleanPath(".."))
  {
    var e := Entry("../" + x, false, mode, Stored(data));
    GuardLetsEntryClimb(x);
    var dest := Dest("..", e);
    assert Parent(dest) == Path(false, ["..", ".."]);
    assert !FileOnPath(map[], Parent(dest));
  }

  /** Local changes around a destination `GuardedUnder` `root` are confined
      to `root`. */
  lemma LocalConfined(fs: FS, fs': FS, dest: Path, root: Path)
    requires Local(fs, fs', dest) && GuardedUnder(dest, root)
    ensures Confined(fs, fs', root)
  {
    forall k | k in fs' && (k !in fs || fs'[k] != fs[k]) && k != dest
      ensures GuardedUnder(k, root) || (AncestorOrSelf(k, root) && fs'[k].Dir?)
    {
      PrefixOfUnder(k, dest, root);
    }
  }

  /** The prefixes of a path's parent are prefixes of the path. */
  lemma ParentUnderSelf(dest: Path)
    ensures forall k :: AncestorOrSelf(k, Parent(dest)) ==> AncestorOrSelf(k, dest)
  {
    forall k | AncestorOrSelf(k, Parent(dest)) ensures AncestorOrSelf(k, dest) {
      assert dest.segs[..|k.segs|] == Parent(dest).segs[..|k.segs|];
    }
  }

  /** The loop of `extractAll`: entries in archive order, stopping at the
      first error and keeping whatever was written before it. */
  function ExtractEntries(fs: FS, destDir: string, es: seq<Entry>): (x: Extraction)
    ensures Confined(fs, x.fs, CleanPath(destDir))
    ensures KindsKept(fs, x.fs)
    decreases |es|
  {
    if |es| == 0 then Extraction(fs, None)
    else
      var x1 := ExtractEntry(fs, destDir, es[0]);
      if x1.err.Some? then x1
      else
        var x2 := ExtractEntries(x1.fs, destDir, es[1..]);
        ConfinedTransitive(fs, x1.fs, x2.fs, CleanPath(destDir));
        KindsKeptTransitive(fs, x1.fs, x2.fs);
        x2
  }

  /** `extractAll(zipPath, destDir)`, given what `zip.OpenReader` made of
      the file. */
  function ExtractAll(fs: FS, archive: Result<seq<Entry>>, destDir: string): (x: Extraction)
    ensures archive.Err? ==> x == Extraction(fs, Some("failed to open zip file: " + archive.msg))
    ensures archive == Ok([]) ==> x == Extraction(fs, None)
    ensures Confined(fs, x.fs, CleanPath(destDir))
  {
    match archive
    case Err(m) =>
      assert Wrap("failed to open zip file", m) == "failed to open zip file: " + m;
      Extraction(fs, Some(Wrap("failed to open zip file", m)))
    case Ok(es) => ExtractEntries(fs, destDir, es)
  }

  lemma ConfinedTransitive(a: FS, b: FS, c: FS, root: Path)
    requires Confined(a, b, root) && Confined(b, c, root)
    ensures Confined(a, c, root)
  {
  }

  /** A prefix of a path `GuardedUnder` `root` is `GuardedUnder` `root` or
      on the way to it. */
  lemma PrefixOfUnder(k: Path, dest: Path, root: Path)
    requires AncestorOrSelf(k, dest) && GuardedUnder(dest, root)
    ensures GuardedUnder(k, root) || AncestorOrSelf(k, root)
  {
    if |k.segs| > |root.segs| {
      assert k.segs[..|root.segs|] == dest.segs[..|k.segs|][..|root.segs|];
      assert k.segs[|root.segs|] == dest.segs[|root.segs|];
    } else {
      assert root.segs[..|k.segs|] == dest.segs[..|root.segs|][..|k.segs|];
    }
  }

  // ---------------------------------------------------------------------------
  // What a run of the loop amounts to.

  /** The loop over `a + b` is the loop over `a` followed, if that did not
      fail, by the loop over `b` on the filesystem it left: nothing is rolled
      back. */
  lemma {:induction false} ExtractEntriesAppend(fs: FS, destDir: string, a: seq<Entry>, b: seq<Entry>)
    ensures ExtractEntries(fs, destDir, a + b) ==
      var x := ExtractEntries(fs, destDir, a);
      if x.err.Some? then x else ExtractEntries(x.fs, destDir, b)
    decreases |a|
  {
    if |a| == 0 {
      assert a + b == b;
    } else {
      assert (a + b)[0] == a[0];
      assert (a + b)[1..] == a[1..] + b;
      var x1 := ExtractEntry(fs, destDir, a[0]);
      if x1.err.None? {
        ExtractEntriesAppend(x1.fs, destDir, a[1..], b);
      }
    }
  }

  /** The first entry that fails the guard stops extraction with its name,
      keeping exactly what the entries before it wrote. */
  lemma AbortsAtUnsafeEntry(fs: FS, destDir: string, es: seq<Entry>, k: nat)
    requires k < |es| && !InsideGuard(destDir, es[k].name)
    requires ExtractEntries(fs, destDir, es[..k]).err.None?
    ensures ExtractEntries(fs, destDir, es) ==
      Extraction(ExtractEntries(fs, destDir, es[..k]).fs, Some("invalid file path: " + es[k].name))
  {
    assert es == es[..k] + es[k..];
    ExtractEntriesAppend(fs, destDir, es[..k], es[k..]);
    assert es[k..][0] == es[k];
  }

  /** A successful extraction passed every entry through the guard and read
      every file entry in full. */
  lemma {:induction false} SuccessMeansAllGuarded(fs: FS, destDir: string, es: seq<Entry>)
    requires ExtractEntries(fs, destDir, es).err.None?
    ensures forall i :: 0 <= i < |es| ==> InsideGuard(destDir, es[i].name)
    ensures forall i :: 0 <= i < |es| && !es[i].isDir ==> es[i].payload.Stored?
    decreases |es|
  {
    if |es| > 0 {
      var x1 := ExtractEntry(fs, destDir, es[0]);
      assert x1.err.None?;
      SuccessMeansAllGuarded(x1.fs, destDir, es[1..]);
      forall i | 0 <= i < |es|
        ensures InsideGuard(destDir, es[i].name)
        ensures !es[i].isDir ==> es[i].payload.Stored?
      {
        if i > 0 {
          assert es[i] == es[1..][i - 1];
        }
      }
    }
  }

  /** A node no file entry lands on is left exactly as it was. */
  lemma {:induction false} Untouched(fs: FS, destDir: string, es: seq<Entry>, k: Path)
    requires k in fs
    requires forall j :: 0 <= j < |es| && !es[j].isDir ==> Dest(destDir, es[j]) != k
    ensures k in ExtractEntries(fs, destDir, es).fs && ExtractEntries(fs, destDir, es).fs[k] == fs[k]
    decreases |es|
  {
    if |es| > 0 {
      var x1 := ExtractEntry(fs, destDir, es[0]);
      if x1.err.None? {
        assert forall j :: 0 <= j < |es| - 1 ==> es[1..][j] == es[j + 1];
        Untouched(x1.fs, destDir, es[1..], k);
      }
    }
  }

  /** After a successful extraction each file holds the contents of the last
      file entry that lands on it. */
  lemma {:induction false} LastFileEntryWins(fs: FS, destDir: string, es: seq<Entry>, i: nat)
    requires ExtractEntries(fs, destDir, es).err.None?
    requires i < |es| && !es[i].isDir
    requires forall j :: i < j < |es| && !es[j].isDir ==> Dest(destDir, es[j]) != Dest(destDir, es[i])
    ensures var x := ExtractEntries(fs, destDir, es); var dest := Dest(destDir, es[i]);
      dest in x.fs && x.fs[dest].File? && es[i].payload.Stored? && x.fs[dest].data == es[i].payload.data
    decreases |es|
  {
    var x1 := ExtractEntry(fs, destDir, es[0]);
    assert forall j :: 0 <= j < |es| - 1 ==> es[1..][j] == es[j + 1];
    if i == 0 {
      Untouched(x1.fs, destDir, es[1..], Dest(destDir, es[0]));
    } else {
      LastFileEntryWins(x1.fs, destDir, es[1..], i - 1);
    }
  }

  /** Extraction keeps the filesystem a tree. */
  lemma {:induction false} ExtractEntriesKeepsTree(fs: FS, destDir: string, es: seq<Entry>)
    requires WellFormed(fs)
    ensures WellFormed(ExtractEntries(fs, destDir, es).fs)
    decreases |es|
  {
    if |es| > 0 {
      var e := es[0];
      if InsideGuard(destDir, e.name) {
        var dest := Dest(destDir, e);
        CleanPathIsClean(Join([destDir, e.name]));
        if e.isDir {
          if MkdirAll(fs, dest, e.mode).Ok? {
            MkdirAllKeepsTree(fs, dest, e.mode);
          }
        } else {
          ExtractFileKeepsTree(fs, dest, e);
        }
      }
      var x1 := ExtractEntry(fs, destDir, e);
      if x1.err.None? {
        ExtractEntriesKeepsTree(x1.fs, destDir, es[1..]);
      }
    }
  }

  lemma ExtractFileKeepsTree(fs: FS, dest: Path, e: Entry)
    requires WellFormed(fs) && IsClean(dest)
    ensures WellFormed(ExtractFile(fs, dest, e).fs)
  {
    ParentIsClean(dest);
    if MkdirAll(fs, Parent(dest), DirPerm).Ok? {
      var fs1 := MkdirAll(fs, Parent(dest), DirPerm).value;
      MkdirAllKeepsTree(fs, Parent(dest), DirPerm);
      if CreateTruncate(fs1, dest, e.mode).Ok? {
        CreateTruncateKeepsTree(fs1, dest, e.mode);
        var fs2 := CreateTruncate(fs1, dest, e.mode).value;
        WriteDataKeepsTree(fs2, dest, if e.payload.Stored? then e.payload.data else if e.payload.Corrupt? then e.payload.partial else []);
      }
    }
  }

  lemma FileOnPathKept(a: FS, b: FS, p: Path)
    requires KindsKept(a, b) && FileOnPath(a, p)
    ensures FileOnPath(b, p)
  {
    var w :| w in a && AncestorOrSelf(w, p) && a[w].File?;
    assert w in b && b[w].File?;
  }

  /** After a successful extraction every file entry's directory exists, and
      every directory entry is a directory unless a file stands on its path. */
  lemma {:induction false} DirectoriesPresent(fs: FS, destDir: string, es: seq<Entry>, i: nat)
    requires ExtractEntries(fs, destDir, es).err.None? && i < |es|
    ensures var x := ExtractEntries(fs, destDir, es); var dest := Dest(destDir, es[i]);
      if es[i].isDir then IsDirAt(x.fs, dest) || FileOnPath(x.fs, dest) else IsDirAt(x.fs, Parent(dest))
    decreases |es|
  {
    var x1 := ExtractEntry(fs, destDir, es[0]);
    var x := ExtractEntries(fs, destDir, es);
    assert forall j :: 0 <= j < |es| - 1 ==> es[1..][j] == es[j + 1];
    if i == 0 {
      var dest := Dest(destDir, es[0]);
      SuccessMeansAllGuarded(fs, destDir, es);
      if es[0].isDir && !IsDirAt(x1.fs, dest) {
        FileOnPathKept(fs, x1.fs, dest);
        FileOnPathKept(x1.fs, x.fs, dest);
      }
    } else {
      DirectoriesPresent(x1.fs, destDir, es[1..], i - 1);
    }
  }

  // ---------------------------------------------------------------------------
  // Download to a temporary file, then extract.

  /** `DownloadAndExtract(url, destDir)`: `temp` is the name `os.CreateTemp`
      picks, `resp` and `sink` the exchange with the server and the temporary
      file's capacity, `openZip` what `zip.OpenReader` makes of the bytes.
      The temporary file is removed on every path once it exists. */
  function DownloadAndExtract(fs: FS, temp: Path, resp: FileDownloader.Response, sink: FileDownloader.Sink,
                              openZip: Bytes -> Result<seq<Entry>>, destDir: string): (x: Extraction)
    ensures CreateExclusive(fs, temp, TempPerm).Err? ==> x.fs == fs && x.err.Some?
    ensures CreateExclusive(fs, temp, TempPerm).Ok? ==> temp !in x.fs
    ensures FileDownloader.DownloadFile(resp, sink).err.Some? ==> x.fs == fs && x.err.Some?
    ensures x.err.None? ==>
      FileDownloader.DownloadFile(resp, sink).err.None? && openZip(FileDownloader.DownloadFile(resp, sink).sunk).Ok?
    ensures Confined(fs, x.fs, CleanPath(destDir))
  {
    match CreateExclusive(fs, temp, TempPerm)
    case Err(m) => Extraction(fs, Some(Wrap("failed to create temp file", m)))
    case Ok(fs1) =>
      var t := FileDownloader.DownloadFile(resp, sink);
      var fs2 := WriteData(fs1, temp, t.sunk);
      if t.err.Some? then
        assert Remove(fs2, temp) == fs;
        Extraction(Remove(fs2, temp), Some(Wrap("failed to download file", t.err.value)))
      else
        var x := ExtractAll(fs2, openZip(t.sunk), destDir);
        TempConfined(fs, fs2, x.fs, temp, CleanPath(destDir));
        Extraction(Remove(x.fs, temp), x.err)
  }

  /** The failures before extraction, each with its message and with the
      tree as it was: the temporary file cannot be created, the download
      fails, or the downloaded bytes are not a zip archive. */
  lemma DownloadAndExtractFailures(fs: FS, temp: Path, resp: FileDownloader.Response, sink: FileDownloader.Sink,
                                   openZip: Bytes -> Result<seq<Entry>>, destDir: string)
    ensures CreateExclusive(fs, temp, TempPerm).Err? ==>
      DownloadAndExtract(fs, temp, resp, sink, openZip, destDir) ==
        Extraction(fs, Some("failed to create temp file: " + CreateExclusive(fs, temp, TempPerm).msg))
    ensures var t := FileDownloader.DownloadFile(resp, sink);
      CreateExclusive(fs, temp, TempPerm).Ok? && t.err.Some? ==>
        DownloadAndExtract(fs, temp, resp, sink, openZip, destDir) ==
          Extraction(fs, Some("failed to download file: " + t.err.value))
    ensures var t := FileDownloader.DownloadFile(resp, sink);
      CreateExclusive(fs, temp, TempPerm).Ok? && t.err.None? && openZip(t.sunk).Err? ==>
        DownloadAndExtract(fs, temp, resp, sink, openZip, destDir) ==
          Extraction(fs, Some("failed to open zip file: " + openZip(t.sunk).msg))
  {
    match CreateExclusive(fs, temp, TempPerm)
    case Err(m) =>
      assert Wrap("failed to create temp file", m) == "failed to create temp file: " + m;
    case Ok(fs1) =>
      var t := FileDownloader.DownloadFile(resp, sink);
      var fs2 := WriteData(fs1, temp, t.sunk);
      assert Remove(fs2, temp) == fs;
      if t.err.Some? {
        assert Wrap("failed to download file", t.err.value) == "failed to download file: " + t.err.value;
      }
  }

  /** Removing the temporary file again leaves only the extraction's
      confined changes. */
  lemma TempConfined(fs: FS, fs2: FS, fs3: FS, temp: Path, root: Path)
    requires temp !in fs && temp in fs2 && fs2 == fs[temp := fs2[temp]] && fs2[temp].File?
    requires Confined(fs2, fs3, root) && KindsKept(fs2, fs3)
    ensures temp in fs3 && fs3[temp].File? && Remove(fs3, temp) == fs3 - {temp}
    ensures Confined(fs, fs3 - {temp}, root)
  {
  }
}
